=== FILE: README.md ===
# Calendar backend: login, session gate and event sync

A model of a small Go web backend that signs users in with Google (OAuth 2.0
authorization code flow plus an OpenID Connect identity token), keeps each
user's provider credentials in a Postgres user table, issues its own
72-hour session token (an HS256 JSON Web Token held in the `token` cookie),
and proxies calendar operations for the signed-in user: creating an event
(mirrored into a local meeting table) and listing the coming week's events,
refreshing the stored OAuth token and retrying once when the calendar
answers with an error that looks like token expiry.

The model is written as pure functions over immutable values:

- `Domain`: the user and meeting records. It also models the meeting's attendee
  column, which `strings.Join`/`strings.Split` convert to and from the list.
  `Text` supplies byte-string `Contains`, `Split` and `Join` with the Go
  semantics.
- `UserStore`, `MeetingRepo`: the repositories over GORM. A table is a
  sequence of rows. A database fault is a boolean the caller passes in.
  Unique-column collisions make writes fail. GORM `Save` is an upsert by
  primary key.
- `EventService`: CreateEvent and ListEvents, sharing one refresh-and-retry
  model, `CallWithRefresh`. The calendar API, the token endpoint and client
  construction are oracle answers. Each call returns the tables after the
  call, the ordered trace of external effects, and the result.
- `EventHandler`: request validation and the HTTP replies of the event routes.
- `Jwt`, `Middleware`: token selection (header before cookie), the jwt/v5
  parse decisions (segment shape, HMAC-only key function, `exp`/`nbf`), and
  the `email` claim check.
- `AuthService`, `AuthHandler`: the login callback (id-token check,
  create-or-update of the user, session token), the state-cookie guard, logout
  and the dashboard's identity check.
- `SessionFlow`: properties across modules. They cover the login state
  round trip, forged states, the 72-hour session window, and a logged-out
  browser.

Strings stand for Go byte strings, one `char` per byte, so `|s|` is Go's
`len(s)`. Times are whole seconds.

## Model

| member | source | states |
|---|---|---|
| Text.ContainsIffOccurs | internal/handler/event.go:107 | the substring test used by the handlers and the service holds exactly when the needle occurs at some index of the haystack |
| Text.ContainsSingle | internal/handler/event.go:107 | a one-byte substring test is byte membership |
| Text.ContainsInContext | internal/service/event.go:259-261 | a substring found in a string is still found after text is added on both sides |
| Text.MissingByteRulesOut | internal/service/event.go:259-261 | a string lacking a byte of the needle cannot contain the needle |
| Text.SplitLength | internal/domain/models.go:55-57 | splitting on a separator yields one more piece than the separator occurs |
| Text.SplitPiecesAreFree | internal/domain/models.go:55-57 | no piece of a split contains the separator |
| Text.JoinSplit | internal/domain/models.go:55-57 | joining the pieces of a split gives back the original string |
| Text.SplitJoin | internal/repository/meeting.go:24 | splitting a join of one or more separator-free parts gives back the parts |
| Text.JoinIsEmpty | internal/repository/meeting.go:24 | a join is empty exactly for no parts or the single empty part |
| Domain.CredentialsNotSerialised | internal/domain/models.go:13-23 | the JSON form of a user omits access token, refresh token and expiry: changing them leaves it unchanged |
| Domain.SplitAttendees | internal/domain/models.go:55-57 | the pieces number one more than the commas, none contains a comma, and re-joining them gives the column back |
| Domain.AfterFind | internal/domain/models.go:47-52 | only the attendee list changes; an empty column leaves the list alone; otherwise the list is the comma split of the column |
| Domain.AttendeesRoundTrip | internal/domain/models.go:26-52 | a meeting whose column was joined from comma-free attendees reads back identical if and only if its list is not `[""]`, which reads back as the empty list |
| Domain.CommaAttendeeSplitsOnReload | internal/domain/models.go:47-57 | an attendee `x,y` (comma-free `x` and `y`) is joined unchanged into the column and reads back as the two attendees `x` and `y`, so the meeting does not round-trip |
| UserStore.Find | internal/repository/user.go:25-47 | the index returned is the first matching row in table order; no index means no row matches. GORM `First` orders by primary key instead; the two agree because every matching column is unique under KeysUnique, which CreatePreservesUniqueness and UpdatePreservesUniqueness maintain |
| UserStore.Get | internal/repository/user.go:25-47 | a fault is the only error; not-found is reported exactly when no row matches; a found user is a stored matching row |
| UserStore.CreateUser | internal/repository/user.go:21-23 | the insert commits exactly when there is no fault and no key collision, appending the row; otherwise the table is unchanged |
| UserStore.ReplaceById | internal/repository/user.go:49-51 | every row with the saved user's primary key is overwritten by it and every other row is kept in place |
| UserStore.UpdateUser | internal/repository/user.go:49-51 | the save commits exactly when there is no fault and no unique-column collision; afterwards the saved user is stored, rows with its id equal it, other rows are kept, and nothing else appears |
| UserStore.CreatePreservesUniqueness | internal/domain/models.go:15-17 | an insert keeps the primary key, Google id and email unique across rows |
| UserStore.UpdatePreservesUniqueness | internal/domain/models.go:15-17 | a save keeps the primary key, Google id and email unique across rows |
| MeetingRepo.CreateMeeting | internal/repository/meeting.go:22-40 | the caller's meeting gets the joined attendee column; a zero id commits exactly when the database accepts the insert and the next sequence value is free, and then takes that value; an explicit id commits exactly when accepted and free, and keeps it; a committed insert appends exactly that row; a refused insert rolls back |
| MeetingRepo.CreateKeepsIdsDistinct | internal/repository/meeting.go:22-40 | the insert keeps primary keys distinct |
| MeetingRepo.CreateKeepsRowsPersisted | internal/domain/models.go:34-35 | an insert keeps every row in its persisted form: the attendee list is not a column, so no row carries one |
| MeetingRepo.StoredMeetingReadsBack | internal/repository/meeting.go:22-40 | the stored row, loaded through the find hook, equals the meeting the caller holds, for comma-free attendees other than `[""]` |
| MeetingRepo.SelectRows | internal/repository/meeting.go:42-48 | every loaded row matching creator and window is in the result, nothing else is, and the result has exactly as many entries as rows match |
| MeetingRepo.SelectOneRow | internal/repository/meeting.go:42-48 | a single row yields its loaded form when it matches creator and window, and nothing otherwise |
| MeetingRepo.SelectRowsAppend | internal/repository/meeting.go:42-48 | the selection of two stretches of the table is the two selections in order, so with SelectOneRow the result is fixed row by row: which rows, how many times each, and (in the model's table order) their order |
| MeetingRepo.ListMeetingsByUser | internal/repository/meeting.go:42-48 | fails exactly on a fault; otherwise returns every loaded row of that creator inside the window and nothing else, one entry per matching row |
| MeetingRepo.FindId | internal/repository/meeting.go:50-59 | the index returned holds that id; no index means the id is free |
| MeetingRepo.GetMeetingByID | internal/repository/meeting.go:50-59 | a fault is a database error; a free id is record-not-found; otherwise the loaded row with that id |
| EventService.WithToken | internal/service/event.go:90-92 | all three credential fields take the new token's values and nothing else changes |
| EventService.ExpiryClassification | internal/service/event.go:246-262 | an error counts as token expiry exactly when it is present and its text contains "invalid_grant", "expired" or "Invalid Credentials" at some index |
| EventService.ExpiryClassificationSurvivesWrapping | internal/service/event.go:246-262 | wrapping an expiry error's text with more text keeps it an expiry error |
| EventService.NoMarkerByte | internal/service/event.go:246-262 | text with no `_`, `x` or `I` byte is never classified as expiry |
| EventService.ExpiryClassificationIsCaseSensitive | internal/service/event.go:259-261 | "invalid credentials" in lower case is not classified as expiry |
| EventService.CallWithRefresh | internal/service/event.go:48-112 | a failed client build is an error with no request; a first success is returned at once from a single request with the stored token; a non-expiry failure ends at once with the table unchanged; an expiry failure is followed by a refresh with the stored refresh token, whose failure ends the call, then a save of the new credentials, whose failure ends the call with the table unchanged; after a committed save the table is the saved one and, if the client rebuilds, the same call is sent once more with the new token and its answer is returned; never more than two requests |
| EventService.RefreshOverwritesCredentials | internal/service/event.go:90-95 | after a refresh, every row of the user holds the new access token, refresh token and expiry, an empty refresh token included |
| EventService.StoreAfterInsert | internal/service/event.go:114-129 | a failed calendar step returns its error without touching the meeting table; after a successful insert the store succeeds exactly when the database accepts it and the next id is free, appending the mirror row (event id, creator, joined attendees, next id) and returning the event id; a refused store is an error |
| EventService.AfterLookup | internal/service/event.go:41-130 | after a found creator, the lookup and then the insert step's effects open the trace and the user table is the one that step leaves; a calendar failure is returned as is, ends the trace and keeps the meeting table; a calendar success adds exactly one store effect and succeeds exactly when the store is accepted and the next id is free, appending the mirror row, advancing the id sequence by one and recording that mirror in the store effect, and otherwise fails with a meeting-store error and keeps the meeting table |
| EventService.CreateEvent | internal/service/event.go:33-130 | the creator is looked up first; an unknown creator or a lookup fault ends with user-not-found and no change; for a found creator the trace starts with the lookup followed by the refresh-and-retry insert and the user table is the one it leaves; a calendar failure is returned as is and ends the trace; a calendar success adds exactly one store effect and yields the event id exactly when the mirror row is stored, appended to the meeting table with the id sequence advanced by one and that mirror recorded in the store effect, and otherwise a meeting-store error |
| EventService.CreateEventRetriesAtMostOnce | internal/service/event.go:76-112 | the same event is sent at most twice, and twice only after an expiry-classified error, a successful refresh and a committed save of the refreshed credentials for the creator found by the lookup |
| EventService.ExpiredTokenRefreshedThenCreated | internal/service/event.go:77-129 | when the insert fails with an expiry error, the refresh and save succeed and the retry succeeds, CreateEvent returns the retry's event id after exactly two requests, stores the mirror row, and leaves the creator's row holding the refreshed credentials |
| EventService.CreateEventCredentialWrites | internal/service/event.go:84-95 | the user table changes only by saving refreshed credentials onto the creator's row, and never when the refresh fails |
| EventService.UpcomingWeek | internal/service/event.go:153-163 | the listing window starts now and spans seven days, excludes deleted events, expands recurrences and orders by start time |
| EventService.AttendeeEmails | internal/service/event.go:214-219 | one email per attendee, in order |
| EventService.ToOutputs | internal/service/event.go:208-230 | one output per item, in order, field for field, attributed to the requesting user |
| EventService.OutputsKeepOrderAndWindow | internal/service/event.go:157-163 | outputs keep the calendar's start-time order and its time window |
| EventService.ListEvents | internal/service/event.go:132-233 | the user is looked up first; an unknown user ends with user-not-found; for a found user the trace and the user table are those of the refresh-and-retry listing of the week window, a success is the mapping of the items (of the first answer when it succeeded), and a failure is returned as is; the meeting table is never touched |
| EventHandler.IsValidEmailIff | internal/handler/event.go:105-116 | an attendee passes exactly when it holds an `@` byte and a `.` byte and is at most 254 bytes long |
| EventHandler.EmailLengthBoundary | internal/handler/event.go:112 | 254 bytes pass the length check and 255 do not |
| EventHandler.FirstInvalid | internal/handler/event.go:55-60 | returns the first attendee that fails the check, or none when all pass |
| EventHandler.Write | internal/handler/event.go:86-99 | the first write fixes the status code and later writes only append to the body |
| EventHandler.Validate | internal/handler/event.go:24-60 | succeeds exactly when identity, body and both times are present, start is before end and every attendee passes; it then carries the request and the caller's email; a missing identity is a 401, any other refusal a 400; the checks run in source order with their own messages: missing body, unparsable start, unparsable end, start not before end |
| EventHandler.FirstBadAttendeeReported | internal/handler/event.go:55-60 | with valid times, the 400 names the first invalid attendee in list order |
| EventHandler.CreateEvent | internal/handler/event.go:24-80 | a refused request calls nothing and changes nothing; an admitted one leaves the stores and the effect trace exactly as the service run does; 201 is answered exactly when the service succeeds, with the event id; any service error is a 500 |
| EventHandler.ListEvents | internal/handler/event.go:83-100 | the service is always asked, for the caller's email or the empty one, and the stores and the effect trace are as it leaves them; without an identity the reply is 401 followed by the service's events or its failure message; with one, 200 with the events or 500 |
| Jwt.TimeClaimOf | internal/handler/middleware.go:56-65 | a missing date claim is absent, a zero number is absent, any other number is that many seconds, and a non-number is malformed |
| Jwt.Parse | internal/handler/middleware.go:55-65 | a token is accepted exactly when it has three segments, decodes, names an HMAC algorithm, its signature verifies and its `exp`/`nbf` are met; a non-HMAC algorithm is a signature error |
| Jwt.EmptyIsMalformed | internal/handler/middleware.go:56-65 | the empty string is a malformed token |
| Jwt.ExpiredRefused | internal/handler/middleware.go:56-65 | a token at or past its `exp` is refused whatever its signature |
| Middleware.HeaderToken | internal/handler/middleware.go:24-27 | a token is taken from the header exactly when it starts with the case-sensitive "Bearer " and something follows; it is the rest |
| Middleware.SelectToken | internal/handler/middleware.go:29-37 | a header token wins; otherwise the cookie; none only when both are missing |
| Middleware.BarePrefixFallsThrough | internal/handler/middleware.go:25 | a header of only "Bearer " leaves the choice to the cookie |
| Middleware.LowerCaseSchemeIgnored | internal/handler/middleware.go:25 | a "bearer " header is ignored and the cookie decides |
| Middleware.ValidateAndSetContext | internal/handler/middleware.go:53-80 | succeeds exactly when the token parses and carries a string `email` claim, which becomes the identity |
| Middleware.AuthMiddleware | internal/handler/middleware.go:20-49 | no token is a 401 "No valid authentication token"; the request is forwarded exactly when the chosen token validates, with its email claim; any other refusal is a 401 "Invalid authentication token" |
| Middleware.NonHmacRejected | internal/handler/middleware.go:56-61 | a token naming a non-HMAC algorithm is always refused |
| AuthService.SessionToken | internal/service/auth.go:118-130 | the session token is HS256 with exactly the claims `email` and `exp = now + 72h` |
| AuthService.MergeLogin | internal/service/auth.go:94-102 | a returning user gets the new access token, expiry, name and picture; the refresh token only when a non-empty one came; id, Google id and email stay |
| AuthService.MergeIsIdempotent | internal/service/auth.go:94-102 | applying the same login update twice equals applying it once |
| AuthService.RepeatLoginKeepsNewUser | internal/service/auth.go:79-102 | updating a just-created row with the same login changes nothing |
| AuthService.StoreLogin | internal/service/auth.go:73-106 | looks up by Google id first; a lookup fault is a database error; an unknown Google id is created from the claims and provider token, committing exactly when the insert does; a known one is saved as the merge of the stored row with the login, committing exactly when the save does, with the table the save leaves; a failure leaves the table unchanged |
| AuthService.SignIn | internal/service/auth.go:73-114 | after a failed create-or-update nothing is signed and the table is unchanged; after a successful one the session token for the claims' email is signed, and the result is that session or a signing error |
| AuthService.HandleGoogleCallback | internal/service/auth.go:43-115 | no identity token fails before anything else; failed verification, unreadable claims and missing subject or email each fail right after the verification with the table unchanged; with complete claims the create-or-update runs, its failure is returned with the table unchanged, and otherwise the table is the one it leaves, the trace is the verification, the create-or-update effects and the signing, and the result is the signed HS256 session for the claims' email, or a signing error |
| AuthService.FirstLoginCreatesUserAndSession | internal/service/auth.go:43-115 | a first login with complete claims, no fault, no key collision and a working signer appends the new user row and returns the session for the claims' email |
| AuthService.ReturningUserKeepsRefreshToken | internal/service/auth.go:94-106 | for a known Google id whose save raises no collision or fault, the login's update commits; when the provider sends no refresh token, the stored one survives it, and the other fields follow the login |
| AuthService.ChangedEmailNotFoundAfterLogin | internal/service/auth.go:94-109 | when a known Google id logs in with a new email and nothing faults or collides, the login succeeds and the session carries the new email while the row keeps the old one, so a lookup by the session's email finds nothing |
| AuthService.FailedWriteIssuesNoSession | internal/service/auth.go:74-106 | a failed lookup or write ends the login with that error, the table unchanged and nothing signed |
| AuthHandler.GoogleLogin | internal/handler/auth.go:58-73 | the state is stored in the `oauthstate` cookie, then the browser is redirected with the same state |
| AuthHandler.AfterExchange | internal/handler/auth.go:111-136 | a failed exchange is a 500 with no login and no change; otherwise the login is the login service run on the exchanged token, the table is the one it leaves, and the reply is the session cookie holding its compact token plus the dashboard redirect, or a 500 "Authentication failed" |
| AuthHandler.GoogleCallback | internal/handler/auth.go:76-137 | missing state cookie, and empty or mismatched state, are 400s with nothing else done; a matching state clears the cookie first; the code is exchanged exactly when the state matches and the code is non-empty; any login is the login service run on the exchanged token and the table is the one it leaves, otherwise the table is unchanged; the reply after the exchange is the exchange 500, the login 500, or the session cookie and dashboard redirect |
| AuthHandler.Logout | internal/handler/auth.go:139-151 | the session cookie is deleted and nothing fails or is exchanged |
| AuthHandler.Dashboard | internal/handler/auth.go:36-42 | without an identity the only effect is the redirect to the login page; the dashboard is rendered exactly when there is one |
| SessionFlow.LoginStatePassesCallback | internal/handler/auth.go:58-109 | echoing the login redirect's state passes the callback's guard, and the code is exchanged exactly when it is non-empty |
| SessionFlow.ForgedStateRefused | internal/handler/auth.go:79-91 | any other state is refused with a 400 before the exchange, and nothing is stored |
| SessionFlow.IssuedSessionAdmittedFor72Hours | internal/service/auth.go:118-130 | a session token issued at login passes the middleware exactly while the clock is before issue time plus 72 hours, and carries the login's email |
| SessionFlow.LoggedOutBrowserRefused | internal/handler/auth.go:139-151 | after logout, without a bearer header, a request is refused |

## Left out

- Start-up, configuration, dependency wiring, routing, request logging and the panic-recovery middleware are not modelled. They decide no behaviour of the core.
- Cryptography is oracle input and not computed:
  - HMAC signing of the session token;
  - signature checking and JSON decoding of a presented token;
  - OpenID Connect identity-token verification (keys, issuer, audience);
  - UUID generation.
- The calendar insert and list calls, the authorization-code exchange and the token refresh are external HTTP calls. They are oracle answers, and so is each `calendar.NewService` construction (a success flag).
- RFC 3339 parsing and formatting and time zones are not modelled. A request's times arrive already parsed, or absent when they do not parse. Calendar items arrive with parsed start and end. The service ignores item parse errors, which the model does not represent.
- EventService.UpcomingWeek: the week is 7 × 86400 seconds. `AddDate(0, 0, 7)` across a daylight-saving change is not modelled. The two separate `time.Now()` reads are taken as one instant.
- Jwt.Parse: time claims are whole seconds, and the sub-second comparison of the library is not modelled. The `iat` claim is not checked, since the default validator does not check it. Errors are grouped into three kinds, because the middleware answers all of them the same way.
- Cookie attributes (Path, HttpOnly, Secure, SameSite) are not modelled; cookies carry name, value and lifetime only.
- The login page and dashboard templates, and template load or render failures, are not modelled.
- Transactions are modelled only as all-or-nothing inserts. In the model a refused meeting insert leaves the id sequence where it was; Postgres would have used up a value.
- GORM's embedded `gorm.Model` columns (timestamps, soft delete) are not modelled.
- Concurrent requests and races between them are not modelled.
- The OAuth HTTP client built from the stored token refreshes an expired access token by itself before a request, without saving it. `Attempt(call, StoredToken(user))` records the token handed to the client, not necessarily the one sent.
- The OAuth client library may carry the old refresh token into a refreshed token when the provider omits it. The model takes the refresh oracle's token as given and stores it field for field.
- MeetingRepo.SelectRows: the listing query has no ORDER BY, so the database may return the matching rows in any order. The model returns them in table order, which is only one of the orders the database may choose. Which rows come back, and how many times each, does not depend on this choice.
- EventHandler.Validate: times are whole seconds, so a start and end that differ only below one second count as equal and are refused. Go compares them at nanosecond precision and would accept them.
- Go's nil and empty slices are the same empty sequence in the model. An empty listing leaves `eventOutputs` nil and an item without attendees leaves `attendees` nil, and these encode as JSON `null`, not `[]`. The model does not represent the `null` case, nor what the dashboard script does with it. Likewise the empty attendee list that AttendeesRoundTrip reads back is nil in Go.
- The `id_token` extra counts as present only when it is a string. Any other type is absent.
- Session revocation does not exist in the system: logout clears only the cookie. IssuedSessionAdmittedFor72Hours states this by admitting the token until its expiry.

=== FILE: auth_handler.dfy ===
/**
 * The HTTP handlers of the login flow: starting the OAuth redirect with an
 * anti-forgery state cookie, the callback's guards before the code exchange,
 * logout, and the dashboard's identity check. Handler output is the ordered
 * list of its effects on the response and on external systems.
 */
module AuthHandler {
  import opened Results
  import opened Domain
  import UserStore
  import AuthService

  /** How long a cookie lives: for the browser session, already expired (Expires at the epoch), or deleted now (MaxAge -1). */
  datatype CookieLife = BrowserSession | ExpiredAtEpoch | DeleteNow

  datatype Cookie = Cookie(name: string, value: string, life: CookieLife)

  datatype Effect =
    | SetCookie(cookie: Cookie)
    | Fail(status: int, message: string)
    | ExchangeCode(code: string)
    | RedirectToProvider(state: string)
    | RedirectTo(location: string)
    | RenderDashboard

  const StateCookieName: string := "oauthstate"
  const SessionCookieName: string := "token"

  /** GoogleLogin: remember the fresh state in a cookie, then send the browser to the consent screen. */
  function GoogleLogin(state: string): (effects: seq<Effect>)
    ensures |effects| == 2 && effects[0] == SetCookie(Cookie(StateCookieName, state, BrowserSession))
    ensures effects[|effects| - 1] == RedirectToProvider(state)
  {
    [SetCookie(Cookie(StateCookieName, state, BrowserSession)), RedirectToProvider(state)]
  }

  /** The anti-forgery check of section 10.12 of RFC 6749: a non-empty state equal to the cookie's. */
  predicate StateMatches(stateCookie: Option<string>, stateParam: string) {
    stateCookie.Some? && stateParam != "" && stateParam == stateCookie.value
  }

  const ClearStateCookie: Effect := SetCookie(Cookie(StateCookieName, "", ExpiredAtEpoch))

  /** The callback's effects and the login it ran, if it got that far. */
  datatype Callback = Callback(users: UserStore.Users, effects: seq<Effect>, login: Option<AuthService.Login>)

  /** Sets the session cookie. */
  predicate SetsSession(e: Effect) {
    e.SetCookie? && e.cookie.name == SessionCookieName
  }

  /** What follows the code exchange: the login, then the session cookie or a 500. */
  function AfterExchange(
    users: UserStore.Users,
    exchange: CallResult<AuthService.ProviderToken>,
    now: Timestamp,
    o: AuthService.LoginOracle): (c: Callback)
    ensures forall e :: e in c.effects ==> !e.ExchangeCode?
    ensures c.users != users ==> c.login.Some?
    ensures c.login.Some? <==> exchange.Done?
    ensures (exists e :: e in c.effects && SetsSession(e)) <==> c.login.Some? && c.login.value.result.Success?
    ensures forall e :: e in c.effects && SetsSession(e) ==>
      c.login.Some? && c.login.value.result.Success? && e.cookie.value == c.login.value.result.value.compact
    ensures exchange.Failed? ==> c == Callback(users, [Fail(500, "Token Exchange Failed: " + exchange.message)], None)
    ensures c.login.Some? ==>
      exchange.Done? && c.login.value == AuthService.HandleGoogleCallback(users, exchange.value, now, o) &&
      c.users == c.login.value.users
    ensures c.login.Some? && c.login.value.result.Success? ==>
      c.effects == [SetCookie(Cookie(SessionCookieName, c.login.value.result.value.compact, BrowserSession)), RedirectTo("/api/dashboard")]
    ensures c.login.Some? && c.login.value.result.Failure? ==> c.effects == [Fail(500, "Authentication failed")]
  {
    match exchange
    case Failed(why) => Callback(users, [Fail(500, "Token Exchange Failed: " + why)], None)
    case Done(token) =>
      var login := AuthService.HandleGoogleCallback(users, token, now, o);
      match login.result
      case Failure(_) => Callback(login.users, [Fail(500, "Authentication failed")], Some(login))
      case Success(session) =>
        var cookie := SetCookie(Cookie(SessionCookieName, session.compact, BrowserSession));
        assert SetsSession(cookie);
        Callback(login.users, [cookie, RedirectTo("/api/dashboard")], Some(login))
  }

  /**
   * GoogleCallback: state cookie present, then state parameter non-empty and
   * equal to it, then (after clearing the state cookie) a non-empty code; only
   * then the code exchange, the login, and the session cookie.
   */
  function GoogleCallback(
    users: UserStore.Users,
    stateCookie: Option<string>,
    stateParam: string,
    code: string,
    exchange: CallResult<AuthService.ProviderToken>,
    now: Timestamp,
    o: AuthService.LoginOracle): (c: Callback)
    ensures stateCookie.None? ==> c == Callback(users, [Fail(400, "State cookie not found")], None)
    ensures stateCookie.Some? && !StateMatches(stateCookie, stateParam) ==>
      c == Callback(users, [Fail(400, "Invalid state parameter")], None)
    ensures StateMatches(stateCookie, stateParam) ==> |c.effects| > 1 && c.effects[0] == ClearStateCookie
    ensures StateMatches(stateCookie, stateParam) && code == "" ==>
      c == Callback(users, [ClearStateCookie, Fail(400, "Code not found")], None)
    ensures (exists e :: e in c.effects && e.ExchangeCode?) <==> StateMatches(stateCookie, stateParam) && code != ""
    ensures forall e :: e in c.effects && e.ExchangeCode? ==> e.code == code
    ensures c.users != users ==> c.login.Some?
    ensures c.login.Some? <==> StateMatches(stateCookie, stateParam) && code != "" && exchange.Done?
    ensures (exists e :: e in c.effects && SetsSession(e)) <==> c.login.Some? && c.login.value.result.Success?
    ensures forall e :: e in c.effects && SetsSession(e) ==>
      c.login.Some? && c.login.value.result.Success? && e.cookie.value == c.login.value.result.value.compact
    ensures c.login.None? ==> c.users == users
    ensures c.login.Some? ==>
      exchange.Done? && c.login.value == AuthService.HandleGoogleCallback(users, exchange.value, now, o) &&
      c.users == c.login.value.users
    ensures StateMatches(stateCookie, stateParam) && code != "" ==>
      && |c.effects| == 3 + (if c.login.Some? && c.login.value.result.Success? then 1 else 0)
      && c.effects[..2] == [ClearStateCookie, ExchangeCode(code)]
      && (exchange.Failed? ==> c.effects[2] == Fail(500, "Token Exchange Failed: " + exchange.message))
      && (c.login.Some? && c.login.value.result.Failure? ==> c.effects[2] == Fail(500, "Authentication failed"))
      && (c.login.Some? && c.login.value.result.Success? ==>
            c.effects[2..] == [SetCookie(Cookie(SessionCookieName, c.login.value.result.value.compact, BrowserSession)),
                               RedirectTo("/api/dashboard")])
  {
    if stateCookie.None? then Callback(users, [Fail(400, "State cookie not found")], None)
    else if stateParam == "" || stateParam != stateCookie.value then
      Callback(users, [Fail(400, "Invalid state parameter")], None)
    else if code == "" then Callback(users, [ClearStateCookie, Fail(400, "Code not found")], None)
    else
      var tail := AfterExchange(users, exchange, now, o);
      var effects := [ClearStateCookie, ExchangeCode(code)] + tail.effects;
      assert effects[1] == ExchangeCode(code);
      assert forall e :: e in effects ==> e == ClearStateCookie || e == ExchangeCode(code) || e in tail.effects;
      Callback(tail.users, effects, tail.login)
  }

  /** Logout: delete the session cookie and go to the login page. Nothing is revoked server-side. */
  function Logout(): (effects: seq<Effect>)
    ensures |effects| > 0 && effects[0] == SetCookie(Cookie(SessionCookieName, "", DeleteNow))
    ensures forall e :: e in effects ==> !e.ExchangeCode? && !e.Fail?
  {
    [SetCookie(Cookie(SessionCookieName, "", DeleteNow)), RedirectTo("/login")]
  }

  /** Dashboard: without an identity in the context, redirect to the login page. */
  function Dashboard(identity: Option<string>): (effects: seq<Effect>)
    ensures identity.None? <==> effects == [RedirectTo("/login")]
    ensures RenderDashboard in effects <==> identity.Some?
  {
    if identity.None? then [RedirectTo("/login")] else [RenderDashboard]
  }
}

=== FILE: auth_service.dfy ===
/**
 * The login service: from the provider's token response to a session token.
 * It checks the identity token (verification is an oracle: section 3.1.3.7
 * of OpenID Connect Core is not modelled), creates or updates the user row,
 * and issues a session token (RFC 7519) holding the email and an expiry
 * 72 hours ahead.
 */
module AuthService {
  import opened Results
  import opened Domain
  import UserStore
  import Jwt

  /** The provider's token response; `idToken` is the `id_token` extra, when present as a string. */
  datatype ProviderToken = ProviderToken(accessToken: string, refreshToken: string, expiry: Timestamp, idToken: Option<string>)

  /** The identity claims read from a verified identity token. */
  datatype IdClaims = IdClaims(sub: string, email: string, name: string, picture: string)

  /** The oracle's verdict on an identity token. */
  datatype Verification = VerifyFailed | ClaimsUnreadable | Verified(claims: IdClaims)

  /**
   * Oracle answers for one login: the verification verdict, whether the
   * lookup faults, the fresh UUID for a new row, whether the write faults,
   * and the compact token the signer produces (None when signing fails).
   */
  datatype LoginOracle = LoginOracle(
    verification: Verification,
    lookupFault: bool,
    newId: string,
    writeFault: bool,
    signed: Option<string>)

  datatype LoginError =
    | NoIdToken
    | VerificationFailed
    | ClaimsUnparsed
    | MissingClaims
    | DatabaseError
    | CreateUserFailed
    | UpdateUserFailed
    | SigningFailed

  datatype Effect =
    | VerifyIdToken(raw: string)
    | LookupUser(googleId: string)
    | CreateUser(user: User)
    | UpdateUser(user: User)
    | SignSession(token: Jwt.Token)

  /** An issued session token: its compact form and its content. */
  datatype Session = Session(compact: string, token: Jwt.Token)

  datatype Login = Login(users: UserStore.Users, trace: seq<Effect>, result: Result<Session, LoginError>)

  /** Seventy-two hours, in seconds. */
  const SessionLifetime: int := 72 * 60 * 60

  /** The claim set of generateJWT: exactly `email` and `exp`, signed with HS256. */
  function SessionToken(email: string, now: Timestamp): (t: Jwt.Token)
    ensures t.alg == Jwt.HS256 && Jwt.IsHmac(t.alg)
    ensures t.claims.Keys == {"email", "exp"}
    ensures t.claims["email"] == Jwt.Str(email)
    ensures t.claims["exp"] == Jwt.Num(now + SessionLifetime)
  {
    Jwt.Token(Jwt.HS256, map["email" := Jwt.Str(email), "exp" := Jwt.Num(now + SessionLifetime)])
  }

  /** The row created on a first login. */
  function NewUser(id: string, c: IdClaims, token: ProviderToken): User {
    User(id, c.sub, c.email, c.name, c.picture, token.accessToken, token.refreshToken, token.expiry)
  }

  /**
   * The update of a returning user: access token, expiry, name and picture
   * are overwritten; the refresh token only when the provider sent one; id,
   * Google id and email stay.
   */
  function MergeLogin(existing: User, token: ProviderToken, c: IdClaims): (u: User)
    ensures u.id == existing.id && u.googleId == existing.googleId && u.email == existing.email
    ensures u.accessToken == token.accessToken && u.expiresAt == token.expiry
    ensures u.name == c.name && u.picture == c.picture
    ensures token.refreshToken == "" ==> u.refreshToken == existing.refreshToken
    ensures token.refreshToken != "" ==> u.refreshToken == token.refreshToken
  {
    var refreshed := existing.(accessToken := token.accessToken, expiresAt := token.expiry);
    var kept := if token.refreshToken != "" then refreshed.(refreshToken := token.refreshToken) else refreshed;
    kept.(name := c.name, picture := c.picture)
  }

  /** Logging in again with the same provider answer changes nothing more. */
  lemma MergeIsIdempotent(existing: User, token: ProviderToken, c: IdClaims)
    ensures MergeLogin(MergeLogin(existing, token, c), token, c) == MergeLogin(existing, token, c)
  {
  }

  /** A first login followed by the same login again leaves the created row as it was. */
  lemma RepeatLoginKeepsNewUser(id: string, token: ProviderToken, c: IdClaims)
    ensures MergeLogin(NewUser(id, c, token), token, c) == NewUser(id, c, token)
  {
  }

  /** The user table after the create-or-update step, its effects, and its error if it failed. */
  datatype Upsert = Upsert(users: UserStore.Users, trace: seq<Effect>, error: Option<LoginError>)

  /** The create-or-update step, for claims that passed the required-field check. */
  function StoreLogin(users: UserStore.Users, c: IdClaims, token: ProviderToken, o: LoginOracle): (s: Upsert)
    ensures |s.trace| >= 1 && s.trace[0] == LookupUser(c.sub)
    ensures o.lookupFault ==> s == Upsert(users, [LookupUser(c.sub)], Some(DatabaseError))
    ensures s.error.Some? ==> s.users == users
    ensures !o.lookupFault && (forall u :: u in users ==> u.googleId != c.sub) ==>
      s.trace == [LookupUser(c.sub), CreateUser(NewUser(o.newId, c, token))] &&
      (s.error.None? <==> UserStore.CreateUser(users, NewUser(o.newId, c, token), o.writeFault).ok) &&
      (s.error.None? ==> s.users == users + [NewUser(o.newId, c, token)])
    ensures s.error.None? ==> exists u :: u in s.users && u.googleId == c.sub
    ensures UserStore.Get(users, UserStore.ByGoogleId(c.sub), o.lookupFault).Found? ==>
      var merged := MergeLogin(UserStore.Get(users, UserStore.ByGoogleId(c.sub), o.lookupFault).user, token, c);
      && s.trace == [LookupUser(c.sub), UpdateUser(merged)]
      && (s.error.None? <==> UserStore.UpdateUser(users, merged, o.writeFault).ok)
      && (s.error.None? ==> s.users == UserStore.UpdateUser(users, merged, o.writeFault).users)
      && (s.error.Some? ==> s.error == Some(UpdateUserFailed))
    ensures !o.lookupFault && (forall u :: u in users ==> u.googleId != c.sub) && s.error.Some? ==>
      s.error == Some(CreateUserFailed)
  {
    var looked := [LookupUser(c.sub)];
    match UserStore.Get(users, UserStore.ByGoogleId(c.sub), o.lookupFault)
    case LookupFailed => Upsert(users, looked, Some(DatabaseError))
    case NotFound =>
      var created := NewUser(o.newId, c, token);
      var w := UserStore.CreateUser(users, created, o.writeFault);
      if w.ok then
        assert created in w.users;
        Upsert(w.users, looked + [CreateUser(created)], None)
      else Upsert(users, looked + [CreateUser(created)], Some(CreateUserFailed))
    case Found(existing) =>
      var merged := MergeLogin(existing, token, c);
      var w := UserStore.UpdateUser(users, merged, o.writeFault);
      if w.ok then Upsert(w.users, looked + [UpdateUser(merged)], None)
      else Upsert(users, looked + [UpdateUser(merged)], Some(UpdateUserFailed))
  }

  /** The verified identity token carries both required claims, subject and email. */
  predicate CompleteClaims(v: Verification) {
    v.Verified? && v.claims.sub != "" && v.claims.email != ""
  }

  /** What follows the claims check: create or update the user, then sign the session token. */
  function SignIn(users: UserStore.Users, c: IdClaims, token: ProviderToken, now: Timestamp, o: LoginOracle): (r: Login)
    ensures var s := StoreLogin(users, c, token, o);
      && |r.trace| >= |s.trace| && r.trace[..|s.trace|] == s.trace
      && (s.error.Some? ==> r == Login(users, s.trace, Failure(s.error.value)))
      && (s.error.None? ==> r.users == s.users && r.trace == s.trace + [SignSession(SessionToken(c.email, now))])
      && (s.error.None? && o.signed.None? ==> r.result == Failure(SigningFailed))
      && (s.error.None? && o.signed.Some? ==> r.result == Success(Session(o.signed.value, SessionToken(c.email, now))))
    ensures r.result.Success? ==> exists u :: u in r.users && u.googleId == c.sub
  {
    var s := StoreLogin(users, c, token, o);
    if s.error.Some? then Login(users, s.trace, Failure(s.error.value))
    else
      var session := SessionToken(c.email, now);
      var signing := s.trace + [SignSession(session)];
      match o.signed
      case None => Login(s.users, signing, Failure(SigningFailed))
      case Some(compact) => Login(s.users, signing, Success(Session(compact, session)))
  }

  /** HandleGoogleCallback. */
  function HandleGoogleCallback(users: UserStore.Users, token: ProviderToken, now: Timestamp, o: LoginOracle): (r: Login)
    ensures token.idToken.None? ==> r == Login(users, [], Failure(NoIdToken))
    ensures token.idToken.Some? ==> |r.trace| > 0 && r.trace[0] == VerifyIdToken(token.idToken.value)
    ensures r.users != users ==> CompleteClaims(o.verification) && !o.lookupFault
    ensures r.users == users ||
      (o.verification.Verified? && r.users == StoreLogin(users, o.verification.claims, token, o).users)
    ensures o.verification.Verified? && !CompleteClaims(o.verification) ==> r.users == users && r.result.Failure?
    ensures r.result.Success? ==>
      && o.verification.Verified?
      && r.result.value.token == SessionToken(o.verification.claims.email, now)
      && Some(r.result.value.compact) == o.signed
      && exists u :: u in r.users && u.googleId == o.verification.claims.sub
    ensures token.idToken.Some? && o.verification.VerifyFailed? ==>
      r == Login(users, [VerifyIdToken(token.idToken.value)], Failure(VerificationFailed))
    ensures token.idToken.Some? && o.verification.ClaimsUnreadable? ==>
      r == Login(users, [VerifyIdToken(token.idToken.value)], Failure(ClaimsUnparsed))
    ensures token.idToken.Some? && o.verification.Verified? && !CompleteClaims(o.verification) ==>
      r == Login(users, [VerifyIdToken(token.idToken.value)], Failure(MissingClaims))
    ensures token.idToken.Some? && CompleteClaims(o.verification) ==>
      var c := o.verification.claims;
      var s := StoreLogin(users, c, token, o);
      && |r.trace| >= 1 + |s.trace|
      && r.trace[..1 + |s.trace|] == [VerifyIdToken(token.idToken.value)] + s.trace
      && r.trace == [VerifyIdToken(token.idToken.value)] + s.trace +
           (if s.error.Some? then [] else [SignSession(SessionToken(c.email, now))])
      && (s.error.Some? ==> r.result == Failure(s.error.value) && r.users == users)
      && (s.error.None? ==> r.users == s.users && r.trace[|r.trace| - 1] == SignSession(SessionToken(c.email, now)))
      && (s.error.None? && o.signed.None? ==> r.result == Failure(SigningFailed))
      && (s.error.None? && o.signed.Some? ==> r.result == Success(Session(o.signed.value, SessionToken(c.email, now))))
  {
    match token.idToken
    case None => Login(users, [], Failure(NoIdToken))
    case Some(raw) =>
      var verified := [VerifyIdToken(raw)];
      match o.verification
      case VerifyFailed => Login(users, verified, Failure(VerificationFailed))
      case ClaimsUnreadable => Login(users, verified, Failure(ClaimsUnparsed))
      case Verified(c) =>
        if c.sub == "" || c.email == "" then Login(users, verified, Failure(MissingClaims))
        else
          var s := StoreLogin(users, c, token, o);
          var signed := SignIn(users, c, token, now, o);
          var trace := verified + signed.trace;
          assert trace[..1 + |s.trace|] == verified + signed.trace[..|s.trace|];
          Login(signed.users, trace, signed.result)
  }

  /**
   * A first login with complete claims, no database fault, no collision and a
   * working signer creates the user row from the claims and the provider token
   * and issues the session for the claims' email.
   */
  lemma FirstLoginCreatesUserAndSession(users: UserStore.Users, token: ProviderToken, now: Timestamp, o: LoginOracle, compact: string)
    requires token.idToken.Some? && CompleteClaims(o.verification)
    requires !o.lookupFault && !o.writeFault && o.signed == Some(compact)
    requires forall u :: u in users ==> u.googleId != o.verification.claims.sub
    requires UserStore.Insertable(users, NewUser(o.newId, o.verification.claims, token))
    ensures var r := HandleGoogleCallback(users, token, now, o);
      && r.users == users + [NewUser(o.newId, o.verification.claims, token)]
      && r.result == Success(Session(compact, SessionToken(o.verification.claims.email, now)))
  {
  }

  /** A returning user keeps the stored refresh token when the provider sends none; id, Google id and email stay. */
  lemma ReturningUserKeepsRefreshToken(users: UserStore.Users, c: IdClaims, token: ProviderToken, o: LoginOracle, existing: User)
    requires token.refreshToken == "" && !o.lookupFault && !o.writeFault
    requires UserStore.Get(users, UserStore.ByGoogleId(c.sub), false) == UserStore.Found(existing)
    requires UserStore.Saveable(users, MergeLogin(existing, token, c))
    ensures StoreLogin(users, c, token, o).error.None?
    ensures forall v :: v in StoreLogin(users, c, token, o).users && v.id == existing.id ==>
      && v.refreshToken == existing.refreshToken && v.accessToken == token.accessToken
      && v.email == existing.email && v.googleId == existing.googleId
      && v.name == c.name && v.picture == c.picture
  {
    var merged := MergeLogin(existing, token, c);
    var w := UserStore.UpdateUser(users, merged, o.writeFault);
    var s := StoreLogin(users, c, token, o);
    assert s.users == w.users;
    forall v | v in s.users && v.id == existing.id
      ensures v == merged
    {
      assert v in w.users && v.id == merged.id;
    }
  }

  /**
   * The session carries the email of the claims, not the stored one: when the
   * provider reports a new email for a known Google id, the row keeps the old
   * email, and a lookup by the session's email no longer finds it.
   */
  lemma ChangedEmailNotFoundAfterLogin(users: UserStore.Users, token: ProviderToken, now: Timestamp, o: LoginOracle, existing: User)
    requires UserStore.KeysUnique(users)
    requires o.verification.Verified? && o.verification.claims.sub != "" && o.verification.claims.email != ""
    requires token.idToken.Some? && existing in users && existing.googleId == o.verification.claims.sub
    requires forall u :: u in users ==> u.email != o.verification.claims.email
    requires !o.lookupFault && !o.writeFault && o.signed.Some?
    requires UserStore.Saveable(users, MergeLogin(existing, token, o.verification.claims))
    ensures var r := HandleGoogleCallback(users, token, now, o);
      && r.result.Success?
      && r.result.value.token.claims["email"] == Jwt.Str(o.verification.claims.email)
      && UserStore.Get(r.users, UserStore.ByEmail(o.verification.claims.email), false) == UserStore.NotFound
  {
    var c := o.verification.claims;
    var r := HandleGoogleCallback(users, token, now, o);
    var i := UserStore.Find(users, UserStore.ByGoogleId(c.sub)).value;
    var k :| 0 <= k < |users| && users[k] == existing;
    assert i == k;
    var merged := MergeLogin(existing, token, c);
    assert existing.email != c.email;
    assert r.users == UserStore.UpdateUser(users, merged, o.writeFault).users;
  }

  /** A refused lookup, create or update ends the login with an error: nothing is signed and the table is as before. */
  lemma FailedWriteIssuesNoSession(users: UserStore.Users, token: ProviderToken, now: Timestamp, o: LoginOracle)
    requires token.idToken.Some? && o.verification.Verified?
    requires o.verification.claims.sub != "" && o.verification.claims.email != ""
    requires StoreLogin(users, o.verification.claims, token, o).error.Some?
    ensures var r := HandleGoogleCallback(users, token, now, o);
      && r.result == Failure(StoreLogin(users, o.verification.claims, token, o).error.value)
      && r.users == users
      && forall e :: e in r.trace ==> !e.SignSession?
  {
    var s := StoreLogin(users, o.verification.claims, token, o);
    assert forall e :: e in s.trace ==> !e.SignSession?;
  }
}

=== FILE: domain.dfy ===
/**
 * The persisted records: users (identity plus cached OAuth credentials) and
 * meetings (local mirrors of created calendar events), with the flattening of
 * a meeting's attendee list into one comma-separated column.
 */
module Domain {
  import opened Text

  /** An instant, in whole seconds. */
  type Timestamp = int

  /** A user row. The three credential fields are never serialised to clients. */
  datatype User = User(
    id: string,
    googleId: string,
    email: string,
    name: string,
    picture: string,
    accessToken: string,
    refreshToken: string,
    expiresAt: Timestamp)

  /** The JSON shape of a user: the credential fields carry `json:"-"`. */
  datatype UserJson = UserJson(id: string, googleId: string, email: string, name: string, picture: string)

  function ToJson(u: User): UserJson {
    UserJson(u.id, u.googleId, u.email, u.name, u.picture)
  }

  /** The JSON view depends on the public fields only: any credentials give the same document. */
  lemma CredentialsNotSerialised(u: User, access: string, refresh: string, expiry: Timestamp)
    ensures ToJson(u.(accessToken := access, refreshToken := refresh, expiresAt := expiry)) == ToJson(u)
    ensures ToJson(u).email == u.email && ToJson(u).googleId == u.googleId
  {
  }

  /**
   * A meeting. `attendeesString` is the stored column; `attendees` is the
   * in-memory list (`gorm:"-"`), rebuilt from the column by AfterFind.
   */
  datatype Meeting = Meeting(
    id: nat,
    title: string,
    description: string,
    startTime: Timestamp,
    endTime: Timestamp,
    eventId: string,
    attendeesString: string,
    attendees: seq<string>,
    createdBy: string)

  const AttendeeSeparator: char := ','

  /** The attendee list as written to the column: strings.Join(attendees, ","). */
  function FlattenAttendees(attendees: seq<string>): string {
    Join(attendees, AttendeeSeparator)
  }

  /** splitAttendees: strings.Split(column, ","). */
  function SplitAttendees(column: string): (parts: seq<string>)
    ensures |parts| == Count(column, AttendeeSeparator) + 1
    ensures forall i :: 0 <= i < |parts| ==> AttendeeSeparator !in parts[i]
    ensures FlattenAttendees(parts) == column
  {
    SplitLength(column, AttendeeSeparator);
    SplitPiecesAreFree(column, AttendeeSeparator);
    JoinSplit(column, AttendeeSeparator);
    Split(column, AttendeeSeparator)
  }

  /** The AfterFind hook: rebuild the list from a non-empty column, leave it alone otherwise. */
  function AfterFind(m: Meeting): (loaded: Meeting)
    ensures loaded.(attendees := m.attendees) == m
    ensures m.attendeesString == "" ==> loaded.attendees == m.attendees
    ensures m.attendeesString != "" ==>
      && FlattenAttendees(loaded.attendees) == m.attendeesString
      && |loaded.attendees| == Count(m.attendeesString, AttendeeSeparator) + 1
      && forall i :: 0 <= i < |loaded.attendees| ==> AttendeeSeparator !in loaded.attendees[i]
  {
    if m.attendeesString != "" then m.(attendees := SplitAttendees(m.attendeesString)) else m
  }

  /** What a row looks like in the table: the list field is not a column. */
  function Persisted(m: Meeting): Meeting {
    m.(attendees := [])
  }

  /** What a later read of a stored meeting yields. */
  function Reload(m: Meeting): Meeting {
    AfterFind(Persisted(m))
  }

  /** True of a meeting whose column was produced from its list, as CreateMeeting does. */
  predicate Flattened(m: Meeting) {
    m.attendeesString == FlattenAttendees(m.attendees)
  }

  /** No attendee contains the separator. */
  predicate SeparatorFree(attendees: seq<string>) {
    forall i :: 0 <= i < |attendees| ==> AttendeeSeparator !in attendees[i]
  }

  /**
   * Round trip through the attendee column: a flattened meeting with
   * separator-free attendees reads back identical exactly when its list is
   * not the single empty attendee `[""]`.
   */
  lemma AttendeesRoundTrip(m: Meeting)
    requires Flattened(m) && SeparatorFree(m.attendees)
    ensures Reload(m) == m <==> m.attendees != [""]
    ensures m.attendees == [""] ==> Reload(m).attendees == []
  {
    JoinIsEmpty(m.attendees, AttendeeSeparator);
    if m.attendeesString != "" {
      SplitJoin(m.attendees, AttendeeSeparator);
    }
  }

  /** An attendee holding one separator comes back as the two attendees on either side of it. */
  lemma CommaAttendeeSplitsOnReload(m: Meeting, x: string, y: string)
    requires AttendeeSeparator !in x && AttendeeSeparator !in y
    requires m.attendees == [x + [AttendeeSeparator] + y] && Flattened(m)
    ensures Reload(m).attendees == [x, y]
    ensures Reload(m) != m
  {
    assert m.attendeesString == x + [AttendeeSeparator] + y;
    SplitAfterFree(x, y, AttendeeSeparator);
    SplitFree(y, AttendeeSeparator);
  }
}

=== FILE: event_handler.dfy ===
/**
 * The HTTP handlers for events: request validation before the service is
 * called, and the replies written for each outcome. The caller's identity
 * is whatever the authentication middleware put in the request context.
 */
module EventHandler {
  import opened Results
  import opened Text
  import opened Domain
  import opened EventService

  /** The path-length limit of section 4.5.3.1.3 of RFC 5321, used as an address bound. */
  const MaxEmailLength: int := 254

  /** isValidEmail: holds "@" and ".", and is at most 254 bytes long. Not an address-syntax check. */
  predicate IsValidEmail(email: string) {
    Contains(email, "@") && Contains(email, ".") && !(|email| > MaxEmailLength)
  }

  /** The substring tests are byte membership tests. */
  lemma IsValidEmailIff(email: string)
    ensures IsValidEmail(email) <==> '@' in email && '.' in email && |email| <= MaxEmailLength
  {
    ContainsSingle(email, '@');
    ContainsSingle(email, '.');
  }

  /** The length bound is inclusive: 254 bytes pass, 255 do not. */
  lemma EmailLengthBoundary(email: string)
    requires '@' in email && '.' in email
    ensures |email| == MaxEmailLength ==> IsValidEmail(email)
    ensures |email| == MaxEmailLength + 1 ==> !IsValidEmail(email)
  {
    IsValidEmailIff(email);
  }

  /** Position of the first attendee that fails the check. */
  function FirstInvalid(attendees: seq<string>): (r: Option<nat>)
    ensures r.None? <==> forall i :: 0 <= i < |attendees| ==> IsValidEmail(attendees[i])
    ensures r.Some? ==>
      && r.value < |attendees|
      && !IsValidEmail(attendees[r.value])
      && forall j :: 0 <= j < r.value ==> IsValidEmail(attendees[j])
  {
    if |attendees| == 0 then None
    else if !IsValidEmail(attendees[0]) then Some(0)
    else match FirstInvalid(attendees[1..])
      case None => None
      case Some(i) => Some(i + 1)
  }

  /** A piece of response body. */
  datatype Chunk = Message(text: string) | CreatedBody(eventId: string) | EventsBody(events: seq<EventOutput>)

  /** What has been written to the response: the status (fixed by the first write) and the body pieces. */
  datatype Reply = Reply(status: Option<int>, chunks: seq<Chunk>)

  const Unwritten: Reply := Reply(None, [])

  /** A write: the first one fixes the status, later ones only add to the body. */
  function Write(r: Reply, status: int, chunk: Chunk): (w: Reply)
    ensures w.chunks == r.chunks + [chunk]
    ensures r.status.Some? ==> w.status == r.status
    ensures r.status.None? ==> w.status == Some(status)
  {
    Reply(if r.status.None? then Some(status) else r.status, r.chunks + [chunk])
  }

  /** http.Error on a fresh response. */
  function Rejection(status: int, text: string): Reply {
    Write(Unwritten, status, Message(text))
  }

  /** The decoded body of POST /api/events; each time is the RFC 3339 parse of its field, None when it does not parse. */
  datatype EventBody = EventBody(
    title: string,
    description: string,
    startTime: Option<Timestamp>,
    endTime: Option<Timestamp>,
    attendees: seq<string>)

  /** Every check of the create handler passes for this identity and body. */
  predicate Admissible(identity: Option<string>, body: Option<EventBody>) {
    && identity.Some? && body.Some?
    && body.value.startTime.Some? && body.value.endTime.Some?
    && body.value.startTime.value < body.value.endTime.value
    && forall i :: 0 <= i < |body.value.attendees| ==> IsValidEmail(body.value.attendees[i])
  }

  /** The checks of the create handler, in order, each ending the request with its own reply. */
  function Validate(identity: Option<string>, body: Option<EventBody>): (v: Result<CreateEventInput, Reply>)
    ensures v.Success? <==> Admissible(identity, body)
    ensures v.Success? ==>
      && v.value.createdBy == identity.value
      && v.value.startTime < v.value.endTime
      && v.value.attendees == body.value.attendees
      && v.value.title == body.value.title && v.value.description == body.value.description
      && Some(v.value.startTime) == body.value.startTime && Some(v.value.endTime) == body.value.endTime
    ensures identity.None? ==> v == Failure(Rejection(401, "Unauthorized"))
    ensures identity.Some? && v.Failure? ==> v.error.status == Some(400)
    ensures identity.Some? && body.None? ==> v == Failure(Rejection(400, "Invalid request payload"))
    ensures identity.Some? && body.Some? && body.value.startTime.None? ==>
      v == Failure(Rejection(400, "Invalid start time format"))
    ensures identity.Some? && body.Some? && body.value.startTime.Some? && body.value.endTime.None? ==>
      v == Failure(Rejection(400, "Invalid end time format"))
    ensures identity.Some? && body.Some? && body.value.startTime.Some? && body.value.endTime.Some? ==>
      (body.value.startTime.value >= body.value.endTime.value ==>
         v == Failure(Rejection(400, "start time must be before end time")))
  {
    if identity.None? then Failure(Rejection(401, "Unauthorized"))
    else if body.None? then Failure(Rejection(400, "Invalid request payload"))
    else
      var req := body.value;
      if req.startTime.None? then Failure(Rejection(400, "Invalid start time format"))
      else if req.endTime.None? then Failure(Rejection(400, "Invalid end time format"))
      else if !(req.startTime.value < req.endTime.value) then Failure(Rejection(400, "start time must be before end time"))
      else match FirstInvalid(req.attendees)
        case Some(k) => Failure(Rejection(400, "Invalid attendee email: " + req.attendees[k]))
        case None =>
          Success(CreateEventInput(req.title, req.description, req.startTime.value, req.endTime.value, req.attendees, identity.value))
  }

  /** With times in order, a bad attendee is reported by the first bad one in list order. */
  lemma FirstBadAttendeeReported(email: string, body: EventBody)
    requires body.startTime.Some? && body.endTime.Some? && body.startTime.value < body.endTime.value
    requires exists i :: 0 <= i < |body.attendees| && !IsValidEmail(body.attendees[i])
    ensures exists k ::
      && 0 <= k < |body.attendees|
      && !IsValidEmail(body.attendees[k])
      && (forall j :: 0 <= j < k ==> IsValidEmail(body.attendees[j]))
      && Validate(Some(email), Some(body)) == Failure(Rejection(400, "Invalid attendee email: " + body.attendees[k]))
  {
    var k := FirstInvalid(body.attendees).value;
    assert Validate(Some(email), Some(body)) == Failure(Rejection(400, "Invalid attendee email: " + body.attendees[k]));
  }

  /** A request, its effect on the stores, the service's effects and the reply. */
  datatype Exchange = Exchange(state: Backend, trace: seq<Effect>, reply: Reply)

  /** POST /api/events. */
  function CreateEvent(b: Backend, identity: Option<string>, body: Option<EventBody>, o: CreateOracle): (x: Exchange)
    ensures !Admissible(identity, body) ==> x.state == b && x.trace == [] && x.reply.status != Some(201)
    ensures Admissible(identity, body) ==> |x.trace| > 0 && x.trace[0] == LookupUser(identity.value)
    ensures Admissible(identity, body) ==>
      var r := EventService.CreateEvent(b, Validate(identity, body).value, o);
      x.state == r.state && x.trace == r.trace
    ensures x.reply.status == Some(201) <==>
      Admissible(identity, body) && EventService.CreateEvent(b, Validate(identity, body).value, o).result.Success?
    ensures x.reply.status == Some(201) ==>
      x.reply.chunks == [CreatedBody(EventService.CreateEvent(b, Validate(identity, body).value, o).result.value)]
    ensures Admissible(identity, body) && x.reply.status != Some(201) ==> x.reply == Rejection(500, "Failed to create event")
  {
    match Validate(identity, body)
    case Failure(reply) => Exchange(b, [], reply)
    case Success(input) =>
      var r := EventService.CreateEvent(b, input, o);
      var reply := match r.result
        case Success(eventId) => Write(Unwritten, 201, CreatedBody(eventId))
        case Failure(_) => Rejection(500, "Failed to create event");
      Exchange(r.state, r.trace, reply)
  }

  /**
   * GET /api/events. A missing identity writes 401 but does not return: the
   * service is still asked, for the empty email, and its reply is appended.
   */
  function ListEvents(b: Backend, identity: Option<string>, now: Timestamp, o: ListOracle): (x: Exchange)
    ensures var email := if identity.Some? then identity.value else "";
      |x.trace| > 0 && x.trace[0] == LookupUser(email)
    ensures x.state.meetings == b.meetings
    ensures identity.None? ==> x.reply.status == Some(401) && |x.reply.chunks| == 2 && x.reply.chunks[0] == Message("Unauthorized")
    ensures var r := EventService.ListEvents(b, if identity.Some? then identity.value else "", now, o);
      && x.state == r.state
      && x.trace == r.trace
      && (identity.None? ==>
            x.reply.chunks[1] == (if r.result.Success? then EventsBody(r.result.value) else Message("Failed to list events")))
    ensures identity.Some? ==>
      var r := EventService.ListEvents(b, identity.value, now, o);
      (r.result.Success? ==> x.reply == Reply(Some(200), [EventsBody(r.result.value)])) &&
      (r.result.Failure? ==> x.reply == Rejection(500, "Failed to list events"))
  {
    var start := if identity.None? then Rejection(401, "Unauthorized") else Unwritten;
    var email := if identity.Some? then identity.value else "";
    var r := EventService.ListEvents(b, email, now, o);
    var reply := match r.result
      case Success(events) => Write(start, 200, EventsBody(events))
      case Failure(_) => Write(start, 500, Message("Failed to list events"));
    Exchange(r.state, r.trace, reply)
  }
}

=== FILE: event_service.dfy ===
/**
 * The calendar service: creating and listing events with the caller's stored
 * OAuth credentials. The calendar API, the token endpoint and the stores'
 * faults are oracle inputs; each operation returns the stores after the call,
 * the trace of external effects in order, and its result.
 */
module EventService {
  import opened Results
  import opened Text
  import opened Domain
  import UserStore
  import MeetingRepo

  /** An OAuth 2.0 token as the client library holds it. */
  datatype OAuthToken = OAuthToken(accessToken: string, refreshToken: string, expiry: Timestamp)

  /** The credentials cached on a user row. */
  function StoredToken(u: User): OAuthToken {
    OAuthToken(u.accessToken, u.refreshToken, u.expiresAt)
  }

  /** The user row with its cached credentials replaced by `t`, field for field. */
  function WithToken(u: User, t: OAuthToken): (v: User)
    ensures StoredToken(v) == t
    ensures v.(accessToken := u.accessToken, refreshToken := u.refreshToken, expiresAt := u.expiresAt) == u
  {
    u.(accessToken := t.accessToken, refreshToken := t.refreshToken, expiresAt := t.expiry)
  }

  /**
   * isTokenExpiredError: a present error whose text contains "invalid_grant"
   * (the error code of section 5.2 of RFC 6749), "expired" or
   * "Invalid Credentials", compared byte for byte.
   */
  predicate IsTokenExpiredError(err: Option<string>) {
    err.Some? &&
    (Contains(err.value, "invalid_grant") || Contains(err.value, "expired") || Contains(err.value, "Invalid Credentials"))
  }

  /** The classifier against the reference notion of an occurrence. */
  lemma ExpiryClassification(err: Option<string>)
    ensures err.None? ==> !IsTokenExpiredError(err)
    ensures err.Some? ==> (IsTokenExpiredError(err) <==>
      (exists i :: OccursAt(err.value, "invalid_grant", i)) ||
      (exists i :: OccursAt(err.value, "expired", i)) ||
      (exists i :: OccursAt(err.value, "Invalid Credentials", i)))
  {
    if err.Some? {
      ContainsIffOccurs(err.value, "invalid_grant");
      ContainsIffOccurs(err.value, "expired");
      ContainsIffOccurs(err.value, "Invalid Credentials");
    }
  }

  /** Wrapping an expiry error in more text keeps it classified as expiry. */
  lemma ExpiryClassificationSurvivesWrapping(before: string, message: string, after: string)
    requires IsTokenExpiredError(Some(message))
    ensures IsTokenExpiredError(Some(before + message + after))
  {
    if Contains(message, "invalid_grant") {
      ContainsInContext(before, message, after, "invalid_grant");
    } else if Contains(message, "expired") {
      ContainsInContext(before, message, after, "expired");
    } else {
      ContainsInContext(before, message, after, "Invalid Credentials");
    }
  }

  /** A message lacking `_`, `x` and `I` cannot hold any of the three markers. */
  lemma NoMarkerByte(message: string)
    requires '_' !in message && 'x' !in message && 'I' !in message
    ensures !IsTokenExpiredError(Some(message))
  {
    MissingByteRulesOut(message, "invalid_grant", '_');
    MissingByteRulesOut(message, "expired", 'x');
    MissingByteRulesOut(message, "Invalid Credentials", 'I');
  }

  /** The match is case-sensitive: a lower-case "invalid credentials" is not an expiry error. */
  lemma ExpiryClassificationIsCaseSensitive()
    ensures !IsTokenExpiredError(Some("invalid credentials"))
  {
    NoMarkerByte("invalid credentials");
  }

  /** The event sent to the calendar. */
  datatype CalendarEvent = CalendarEvent(summary: string, description: string, start: Timestamp, end: Timestamp, attendees: seq<string>)

  /** The listing query: the window, non-deleted single occurrences, ordered by start time. */
  datatype Query = Query(timeMin: Timestamp, timeMax: Timestamp, showDeleted: bool, singleEvents: bool, orderBy: string)

  /** A calendar request. */
  datatype Call = InsertCall(event: CalendarEvent) | ListCall(query: Query)

  /** External effects, in the order they happen. */
  datatype Effect =
    | LookupUser(email: string)
    | Attempt(call: Call, token: OAuthToken)
    | Refresh(refreshToken: string)
    | SaveUser(user: User)
    | StoreMeeting(meeting: Meeting)

  /** How many calendar requests a trace holds. */
  function Attempts(trace: seq<Effect>): nat {
    if |trace| == 0 then 0 else (if trace[0].Attempt? then 1 else 0) + Attempts(trace[1..])
  }

  lemma {:induction false} AttemptsAppend(a: seq<Effect>, b: seq<Effect>)
    ensures Attempts(a + b) == Attempts(a) + Attempts(b)
    decreases |a|
  {
    if |a| == 0 {
      assert a + b == b;
    } else {
      assert (a + b)[1..] == a[1..] + b;
      AttemptsAppend(a[1..], b);
    }
  }

  /** The errors the service returns, one per distinct message. */
  datatype ServiceError =
    | UserNotFound
    | ClientSetupFailed
    | CallFailed(reason: string)
    | RefreshFailed(reason: string)
    | UserUpdateFailed
    | RetryClientSetupFailed
    | RetryFailed(reason: string)
    | MeetingStoreFailed

  /**
   * Oracle answers for one calendar request with refresh-and-retry: whether the
   * calendar client can be built, the first answer, the token endpoint's answer,
   * whether saving the user faults, and the same two for the retry.
   */
  datatype RetryOracle<+T> = RetryOracle(
    clientOk: bool,
    first: CallResult<T>,
    refresh: CallResult<OAuthToken>,
    updateFault: bool,
    retryClientOk: bool,
    second: CallResult<T>)

  datatype Step<+T> = Step(users: UserStore.Users, trace: seq<Effect>, result: Result<T, ServiceError>)

  /** The user table after the refreshed credentials are saved. */
  function SaveRefreshed<T>(users: UserStore.Users, user: User, o: RetryOracle<T>): UserStore.Write
    requires o.refresh.Done?
  {
    UserStore.UpdateUser(users, WithToken(user, o.refresh.value), o.updateFault)
  }

  /** The client was built and the first request failed with an error classified as token expiry. */
  predicate ExpiredFirst<T>(o: RetryOracle<T>) {
    o.clientOk && o.first.Failed? && IsTokenExpiredError(Some(o.first.message))
  }

  /** The refresh succeeded and the refreshed user row was saved. */
  predicate RefreshSaved<T>(users: UserStore.Users, user: User, o: RetryOracle<T>) {
    ExpiredFirst(o) && o.refresh.Done? && SaveRefreshed(users, user, o).ok
  }

  /**
   * Issue `call` with the user's stored token. On an error classified as
   * token expiry: refresh (section 6 of RFC 6749), save the new token on the
   * user row, and issue the same call once more with the new token.
   */
  function CallWithRefresh<T>(users: UserStore.Users, user: User, call: Call, o: RetryOracle<T>): (s: Step<T>)
    ensures Attempts(s.trace) <= 2
    ensures forall e :: e in s.trace && e.Attempt? ==> e.call == call
    ensures |s.trace| > 0 ==> s.trace[0] == Attempt(call, StoredToken(user))
    ensures Attempts(s.trace) == 2 ==>
      && o.first.Failed? && IsTokenExpiredError(Some(o.first.message))
      && o.refresh.Done? && SaveRefreshed(users, user, o).ok
      && s.trace[|s.trace| - 1] == Attempt(call, o.refresh.value)
    ensures o.clientOk && o.first.Failed? && !IsTokenExpiredError(Some(o.first.message)) ==>
      s.users == users && s.trace == [Attempt(call, StoredToken(user))] && s.result == Failure(CallFailed(o.first.message))
    ensures s.users == users || (o.refresh.Done? && SaveRefreshed(users, user, o).ok && s.users == SaveRefreshed(users, user, o).users)
    ensures o.refresh.Failed? ==> s.users == users
    ensures s.result.Success? ==>
      (Attempts(s.trace) == 1 && o.first == Done(s.result.value)) ||
      (Attempts(s.trace) == 2 && o.second == Done(s.result.value))
    ensures !o.clientOk ==> s == Step(users, [], Failure(ClientSetupFailed))
    ensures o.clientOk && o.first.Done? ==>
      s == Step(users, [Attempt(call, StoredToken(user))], Success(o.first.value))
    ensures ExpiredFirst(o) ==>
      |s.trace| >= 2 && s.trace[..2] == [Attempt(call, StoredToken(user)), Refresh(user.refreshToken)]
    ensures ExpiredFirst(o) && o.refresh.Failed? ==>
      s == Step(users, [Attempt(call, StoredToken(user)), Refresh(user.refreshToken)], Failure(RefreshFailed(o.refresh.message)))
    ensures ExpiredFirst(o) && o.refresh.Done? ==>
      |s.trace| >= 3 && s.trace[2] == SaveUser(WithToken(user, o.refresh.value))
    ensures ExpiredFirst(o) && o.refresh.Done? && !SaveRefreshed(users, user, o).ok ==>
      s.users == users && |s.trace| == 3 && s.result == Failure(UserUpdateFailed)
    ensures RefreshSaved(users, user, o) ==> s.users == SaveRefreshed(users, user, o).users
    ensures RefreshSaved(users, user, o) && !o.retryClientOk ==>
      |s.trace| == 3 && s.result == Failure(RetryClientSetupFailed)
    ensures RefreshSaved(users, user, o) && o.retryClientOk ==>
      && Attempts(s.trace) == 2 && |s.trace| == 4 && s.trace[3] == Attempt(call, o.refresh.value)
      && s.result == (if o.second.Done? then Success(o.second.value) else Failure(RetryFailed(o.second.message)))
  {
    if !o.clientOk then Step(users, [], Failure(ClientSetupFailed))
    else
      var first := [Attempt(call, StoredToken(user))];
      match o.first
      case Done(v) => Step(users, first, Success(v))
      case Failed(why) =>
        if !IsTokenExpiredError(Some(why)) then Step(users, first, Failure(CallFailed(why)))
        else
          var asked := first + [Refresh(user.refreshToken)];
          AttemptsAppend(first, [Refresh(user.refreshToken)]);
          match o.refresh
          case Failed(refreshWhy) => Step(users, asked, Failure(RefreshFailed(refreshWhy)))
          case Done(token) =>
            var updated := WithToken(user, token);
            var saved := UserStore.UpdateUser(users, updated, o.updateFault);
            var persisted := asked + [SaveUser(updated)];
            AttemptsAppend(asked, [SaveUser(updated)]);
            if !saved.ok then Step(users, persisted, Failure(UserUpdateFailed))
            else if !o.retryClientOk then Step(saved.users, persisted, Failure(RetryClientSetupFailed))
            else
              var retried := persisted + [Attempt(call, token)];
              AttemptsAppend(persisted, [Attempt(call, token)]);
              match o.second
              case Done(v) => Step(saved.users, retried, Success(v))
              case Failed(retryWhy) => Step(saved.users, retried, Failure(RetryFailed(retryWhy)))
  }

  /** A successful refresh replaces all three stored credentials, an empty refresh token included. */
  lemma RefreshOverwritesCredentials<T>(users: UserStore.Users, user: User, call: Call, o: RetryOracle<T>)
    requires o.refresh.Done? && o.first.Failed? && IsTokenExpiredError(Some(o.first.message))
    requires o.clientOk && SaveRefreshed(users, user, o).ok
    ensures var s := CallWithRefresh(users, user, call, o);
      forall v :: v in s.users && v.id == user.id ==> StoredToken(v) == o.refresh.value
    ensures var s := CallWithRefresh(users, user, call, o);
      exists v :: v in s.users && v.id == user.id && v.refreshToken == o.refresh.value.refreshToken
  {
    var s := CallWithRefresh(users, user, call, o);
    var w := SaveRefreshed(users, user, o);
    assert s.users == w.users;
    assert WithToken(user, o.refresh.value) in w.users;
  }

  /** The service's input: the validated request plus the caller's email. */
  datatype CreateEventInput = CreateEventInput(
    title: string,
    description: string,
    startTime: Timestamp,
    endTime: Timestamp,
    attendees: seq<string>,
    createdBy: string)

  function EventOf(input: CreateEventInput): CalendarEvent {
    CalendarEvent(input.title, input.description, input.startTime, input.endTime, input.attendees)
  }

  function MeetingOf(input: CreateEventInput, eventId: string): Meeting {
    Meeting(0, input.title, input.description, input.startTime, input.endTime, eventId, "", input.attendees, input.createdBy)
  }

  /** The local mirror as inserted under primary key `id`: the attendee column joined from the list. */
  function Mirror(input: CreateEventInput, eventId: string, id: nat): Meeting {
    MeetingOf(input, eventId).(id := id, attendeesString := FlattenAttendees(input.attendees))
  }

  /** Both tables the service touches. */
  datatype Backend = Backend(users: UserStore.Users, meetings: MeetingRepo.MeetingTable)

  datatype Run<+T> = Run(state: Backend, trace: seq<Effect>, result: Result<T, ServiceError>)

  datatype CreateOracle = CreateOracle(lookupFault: bool, insert: RetryOracle<string>, storeOk: bool)

  /** The insert step of CreateEvent, for a user the lookup found. */
  function InsertStep(b: Backend, user: User, input: CreateEventInput, o: CreateOracle): Step<string> {
    CallWithRefresh(b.users, user, InsertCall(EventOf(input)), o.insert)
  }

  /** What follows a calendar insert: the local mirror is written only after the insert succeeded. */
  function StoreAfterInsert(b: Backend, input: CreateEventInput, s: Step<string>, storeOk: bool): (r: Run<string>)
    ensures s.result.Failure? ==> r == Run(Backend(s.users, b.meetings), s.trace, Failure(s.result.error))
    ensures r.state.users == s.users
    ensures r.state.meetings != b.meetings ==> r.result.Success?
    ensures r.result.Success? ==>
      && r.result == s.result
      && |r.state.meetings.rows| == |b.meetings.rows| + 1
      && r.state.meetings.rows[..|b.meetings.rows|] == b.meetings.rows
      && r.state.meetings.rows[|b.meetings.rows|].eventId == r.result.value
      && r.state.meetings.rows[|b.meetings.rows|].createdBy == input.createdBy
    ensures s.result.Success? ==>
      |r.trace| == |s.trace| + 1 && r.trace[..|s.trace|] == s.trace && r.trace[|s.trace|].StoreMeeting?
    ensures s.result.Success? && !storeOk ==> r.result == Failure(MeetingStoreFailed)
    ensures s.result.Success? && r.result.Failure? ==> r.result == Failure(MeetingStoreFailed)
    ensures s.result.Success? ==>
      (r.result.Success? <==> storeOk && MeetingRepo.IdFree(b.meetings.rows, b.meetings.lastId + 1))
    ensures s.result.Success? && r.result.Success? ==>
      && r.trace == s.trace + [StoreMeeting(Mirror(input, s.result.value, b.meetings.lastId + 1))]
      && r.state.meetings == MeetingRepo.MeetingTable(
           b.meetings.rows + [Persisted(Mirror(input, s.result.value, b.meetings.lastId + 1))], b.meetings.lastId + 1)
  {
    match s.result
    case Failure(e) => Run(Backend(s.users, b.meetings), s.trace, Failure(e))
    case Success(eventId) =>
      var stored := MeetingRepo.CreateMeeting(b.meetings, MeetingOf(input, eventId), storeOk);
      var done := s.trace + [StoreMeeting(stored.meeting)];
      if stored.ok then Run(Backend(s.users, stored.table), done, Success(eventId))
      else Run(Backend(s.users, b.meetings), done, Failure(MeetingStoreFailed))
  }

  /** CreateEvent after a successful lookup of `creator`: the insert step `s`, then the mirror. */
  function AfterLookup(b: Backend, input: CreateEventInput, creator: string, s: Step<string>, storeOk: bool): (r: Run<string>)
    ensures |r.trace| > |s.trace| && r.trace[0] == LookupUser(creator) && r.trace[1..|s.trace| + 1] == s.trace
    ensures r.state.users == s.users
    ensures s.result.Failure? ==>
      r == Run(Backend(s.users, b.meetings), [LookupUser(creator)] + s.trace, s.result)
    ensures s.result.Success? ==>
      && |r.trace| == |s.trace| + 2 && r.trace[|s.trace| + 1].StoreMeeting?
      && (r.result.Success? <==> storeOk && MeetingRepo.IdFree(b.meetings.rows, b.meetings.lastId + 1))
      && (r.result.Failure? ==> r.result == Failure(MeetingStoreFailed) && r.state.meetings == b.meetings)
    ensures r.result.Success? ==>
      && s.result.Success? && r.result == s.result
      && r.state.meetings == MeetingRepo.MeetingTable(
           b.meetings.rows + [Persisted(Mirror(input, r.result.value, b.meetings.lastId + 1))], b.meetings.lastId + 1)
      && r.trace[|s.trace| + 1] == StoreMeeting(Mirror(input, r.result.value, b.meetings.lastId + 1))
  {
    var r := StoreAfterInsert(b, input, s, storeOk);
    Run(r.state, [LookupUser(creator)] + r.trace, r.result)
  }

  /** CreateEvent: look the creator up, create the calendar event, then store the local mirror. */
  function CreateEvent(b: Backend, input: CreateEventInput, o: CreateOracle): (r: Run<string>)
    ensures |r.trace| > 0 && r.trace[0] == LookupUser(input.createdBy)
    ensures !UserStore.Get(b.users, UserStore.ByEmail(input.createdBy), o.lookupFault).Found? ==>
      r == Run(b, [LookupUser(input.createdBy)], Failure(UserNotFound))
    ensures r.state.meetings != b.meetings ==> r.result.Success?
    ensures r.result.Success? ==>
      && |r.state.meetings.rows| == |b.meetings.rows| + 1
      && r.state.meetings.rows[..|b.meetings.rows|] == b.meetings.rows
      && r.state.meetings.rows[|b.meetings.rows|].eventId == r.result.value
      && r.state.meetings.rows[|b.meetings.rows|].createdBy == input.createdBy
    ensures UserStore.Get(b.users, UserStore.ByEmail(input.createdBy), o.lookupFault).Found? ==>
      var s := CallWithRefresh(b.users, UserStore.Get(b.users, UserStore.ByEmail(input.createdBy), o.lookupFault).user,
        InsertCall(EventOf(input)), o.insert);
      && |r.trace| > |s.trace| && r.trace[1..|s.trace| + 1] == s.trace
      && r.state.users == s.users
      && (s.result.Failure? ==> r.trace == [LookupUser(input.createdBy)] + s.trace)
      && (s.result.Success? ==> |r.trace| == |s.trace| + 2 && r.trace[|s.trace| + 1].StoreMeeting?)
      && (s.result.Success? && r.result.Failure? ==> r.result == Failure(MeetingStoreFailed))
      && (s.result.Failure? ==> r.result == s.result && r.state.meetings == b.meetings)
      && (s.result.Success? ==>
            (r.result.Success? <==> o.storeOk && MeetingRepo.IdFree(b.meetings.rows, b.meetings.lastId + 1)))
      && (r.result.Success? ==>
            && r.result == s.result
            && r.state.meetings == MeetingRepo.MeetingTable(
                 b.meetings.rows + [Persisted(Mirror(input, r.result.value, b.meetings.lastId + 1))], b.meetings.lastId + 1)
            && r.trace[|s.trace| + 1] == StoreMeeting(Mirror(input, r.result.value, b.meetings.lastId + 1)))
  {
    match UserStore.Get(b.users, UserStore.ByEmail(input.createdBy), o.lookupFault)
    case Found(user) => AfterLookup(b, input, input.createdBy, InsertStep(b, user, input, o), o.storeOk)
    case _ => Run(b, [LookupUser(input.createdBy)], Failure(UserNotFound))
  }

  /** CreateEvent sends the same event at most twice; a second send follows an expiry error, a refresh and a saved user. */
  lemma CreateEventRetriesAtMostOnce(b: Backend, input: CreateEventInput, o: CreateOracle)
    ensures var r := CreateEvent(b, input, o);
      && Attempts(r.trace) <= 2
      && (forall e :: e in r.trace && e.Attempt? ==> e.call == InsertCall(EventOf(input)))
      && (Attempts(r.trace) == 2 ==>
            && o.insert.first.Failed? && IsTokenExpiredError(Some(o.insert.first.message)) && o.insert.refresh.Done?
            && UserStore.Get(b.users, UserStore.ByEmail(input.createdBy), o.lookupFault).Found?
            && SaveRefreshed(b.users, UserStore.Get(b.users, UserStore.ByEmail(input.createdBy), o.lookupFault).user, o.insert).ok)
  {
    var lookedUp := [LookupUser(input.createdBy)];
    match UserStore.Get(b.users, UserStore.ByEmail(input.createdBy), o.lookupFault)
    case Found(user) =>
      var s := InsertStep(b, user, input, o);
      var r := StoreAfterInsert(b, input, s, o.storeOk);
      AttemptsAppend(lookedUp, r.trace);
      if s.result.Success? {
        assert r.trace == s.trace + [r.trace[|s.trace|]];
        AttemptsAppend(s.trace, [r.trace[|s.trace|]]);
      }
    case _ =>
  }

  /**
   * The expired-token path end to end: the insert fails with an expiry error,
   * the token is refreshed and saved, the retry succeeds, and the event id is
   * returned with the local mirror stored and the creator's row holding the
   * new credentials.
   */
  lemma ExpiredTokenRefreshedThenCreated(b: Backend, input: CreateEventInput, o: CreateOracle, user: User, eventId: string)
    requires UserStore.Get(b.users, UserStore.ByEmail(input.createdBy), o.lookupFault) == UserStore.Found(user)
    requires o.insert.clientOk && o.insert.first.Failed? && IsTokenExpiredError(Some(o.insert.first.message))
    requires o.insert.refresh.Done? && !o.insert.updateFault && UserStore.Saveable(b.users, WithToken(user, o.insert.refresh.value))
    requires o.insert.retryClientOk && o.insert.second == Done(eventId)
    requires o.storeOk && MeetingRepo.IdFree(b.meetings.rows, b.meetings.lastId + 1)
    ensures var r := CreateEvent(b, input, o);
      && r.result == Success(eventId)
      && Attempts(r.trace) == 2
      && r.state.meetings.rows == b.meetings.rows + [Persisted(Mirror(input, eventId, b.meetings.lastId + 1))]
      && (forall v :: v in r.state.users && v.id == user.id ==> StoredToken(v) == o.insert.refresh.value)
  {
    var s := InsertStep(b, user, input, o);
    var r := CreateEvent(b, input, o);
    var w := SaveRefreshed(b.users, user, o.insert);
    assert s.users == w.users;
    CreateEventRetriesAtMostOnce(b, input, o);
    var a := StoreAfterInsert(b, input, s, o.storeOk);
    AttemptsAppend([LookupUser(input.createdBy)], a.trace);
    AttemptsAppend(s.trace, [StoreMeeting(Mirror(input, eventId, b.meetings.lastId + 1))]);
  }

  /** CreateEvent changes the user table only by saving refreshed credentials for the creator. */
  lemma CreateEventCredentialWrites(b: Backend, input: CreateEventInput, o: CreateOracle)
    ensures var r := CreateEvent(b, input, o);
      r.state.users == b.users ||
      (o.insert.refresh.Done? &&
        exists u :: u in b.users && u.email == input.createdBy && r.state.users == SaveRefreshed(b.users, u, o.insert).users)
    ensures o.insert.refresh.Failed? ==> CreateEvent(b, input, o).state.users == b.users
  {
    match UserStore.Get(b.users, UserStore.ByEmail(input.createdBy), o.lookupFault)
    case Found(user) =>
    case _ =>
  }

  /** One attendee of a calendar item, as the API returns it. */
  datatype ItemAttendee = ItemAttendee(email: string, displayName: string)

  /** A calendar item as the listing returns it (start and end already parsed). */
  datatype CalendarItem = CalendarItem(
    id: string,
    summary: string,
    description: string,
    start: Timestamp,
    end: Timestamp,
    attendees: seq<ItemAttendee>)

  /** One entry of the service's listing. */
  datatype EventOutput = EventOutput(
    title: string,
    description: string,
    startTime: Timestamp,
    endTime: Timestamp,
    attendees: seq<string>,
    eventId: string,
    createdBy: string)

  const SecondsPerWeek: int := 7 * 24 * 60 * 60

  /** The listing query for the week from `now`. */
  function UpcomingWeek(now: Timestamp): (q: Query)
    ensures q.timeMax - q.timeMin == SecondsPerWeek && q.timeMin == now
    ensures !q.showDeleted && q.singleEvents && q.orderBy == "startTime"
  {
    Query(now, now + SecondsPerWeek, false, true, "startTime")
  }

  function AttendeeEmails(attendees: seq<ItemAttendee>): (emails: seq<string>)
    ensures |emails| == |attendees|
    ensures forall i :: 0 <= i < |attendees| ==> emails[i] == attendees[i].email
  {
    if |attendees| == 0 then [] else [attendees[0].email] + AttendeeEmails(attendees[1..])
  }

  /** The output mapping: one entry per item, in order, attributed to the requesting user. */
  function ToOutputs(items: seq<CalendarItem>, requester: string): (out: seq<EventOutput>)
    ensures |out| == |items|
    ensures forall i :: 0 <= i < |items| ==>
      && out[i].title == items[i].summary
      && out[i].description == items[i].description
      && out[i].startTime == items[i].start
      && out[i].endTime == items[i].end
      && out[i].attendees == AttendeeEmails(items[i].attendees)
      && out[i].eventId == items[i].id
      && out[i].createdBy == requester
  {
    if |items| == 0 then []
    else
      var item := items[0];
      [EventOutput(item.summary, item.description, item.start, item.end, AttendeeEmails(item.attendees), item.id, requester)]
        + ToOutputs(items[1..], requester)
  }

  predicate ItemsByStart(items: seq<CalendarItem>) {
    forall i, j :: 0 <= i < j < |items| ==> items[i].start <= items[j].start
  }

  predicate OutputsByStart(out: seq<EventOutput>) {
    forall i, j :: 0 <= i < j < |out| ==> out[i].startTime <= out[j].startTime
  }

  /** The mapping keeps the calendar's start-time order and its window. */
  lemma OutputsKeepOrderAndWindow(items: seq<CalendarItem>, requester: string, q: Query)
    requires ItemsByStart(items)
    requires forall i :: 0 <= i < |items| ==> q.timeMin <= items[i].end && items[i].start < q.timeMax
    ensures OutputsByStart(ToOutputs(items, requester))
    ensures forall e :: e in ToOutputs(items, requester) ==> q.timeMin <= e.endTime && e.startTime < q.timeMax
  {
    var out := ToOutputs(items, requester);
    forall e | e in out
      ensures q.timeMin <= e.endTime && e.startTime < q.timeMax
    {
      var i :| 0 <= i < |out| && out[i] == e;
    }
  }

  datatype ListOracle = ListOracle(lookupFault: bool, list: RetryOracle<seq<CalendarItem>>)

  /**
   * ListEvents: look the user up, list the coming week from the calendar
   * (refreshing and retrying once on expiry) and map the items. The meeting
   * table is not consulted.
   */
  function ListEvents(b: Backend, email: string, now: Timestamp, o: ListOracle): (r: Run<seq<EventOutput>>)
    ensures r.state.meetings == b.meetings
    ensures |r.trace| > 0 && r.trace[0] == LookupUser(email)
    ensures !UserStore.Get(b.users, UserStore.ByEmail(email), o.lookupFault).Found? ==>
      r == Run(b, [LookupUser(email)], Failure(UserNotFound))
    ensures forall e :: e in r.trace && e.Attempt? ==> e.call == ListCall(UpcomingWeek(now))
    ensures r.result.Success? ==>
      (o.list.first.Done? && r.result.value == ToOutputs(o.list.first.value, email)) ||
      (o.list.second.Done? && r.result.value == ToOutputs(o.list.second.value, email))
    ensures o.list.refresh.Failed? ==> r.state == b
    ensures UserStore.Get(b.users, UserStore.ByEmail(email), o.lookupFault).Found? ==>
      var s := CallWithRefresh(b.users, UserStore.Get(b.users, UserStore.ByEmail(email), o.lookupFault).user,
        ListCall(UpcomingWeek(now)), o.list);
      && r.trace == [LookupUser(email)] + s.trace
      && r.state.users == s.users
      && (s.result.Success? ==> r.result == Success(ToOutputs(s.result.value, email)))
      && (s.result.Failure? ==> r.result == Failure(s.result.error))
    ensures UserStore.Get(b.users, UserStore.ByEmail(email), o.lookupFault).Found? && o.list.clientOk && o.list.first.Done? ==>
      r.result == Success(ToOutputs(o.list.first.value, email))
  {
    match UserStore.Get(b.users, UserStore.ByEmail(email), o.lookupFault)
    case Found(user) =>
      var s := CallWithRefresh(b.users, user, ListCall(UpcomingWeek(now)), o.list);
      var result := match s.result
        case Success(items) => Success(ToOutputs(items, email))
        case Failure(e) => Failure(e);
      Run(Backend(s.users, b.meetings), [LookupUser(email)] + s.trace, result)
    case _ => Run(b, [LookupUser(email)], Failure(UserNotFound))
  }
}

=== FILE: jwt.dfy ===
/**
 * The slice of JSON Web Token handling (RFC 7519) the service depends on.
 * Signing and signature checking are cryptography and stay outside the
 * model: a token's decoding is an oracle answer that says which algorithm
 * its header names, whether the signature verifies under the server secret,
 * and which claims it carries. What the parser itself decides is modelled:
 * the three-segment shape and the time claims.
 */
module Jwt {
  import opened Results
  import opened Text

  datatype Alg = HS256 | HS384 | HS512 | RS256 | ES256 | PS256 | EdDSA | NoneAlg

  /** The algorithms of the HMAC signing method. */
  predicate IsHmac(alg: Alg) {
    alg.HS256? || alg.HS384? || alg.HS512?
  }

  /** A claim value as JSON decoding yields it: a string, a number, or anything else. */
  datatype ClaimValue = Str(s: string) | Num(n: int) | OtherValue

  type Claims = map<string, ClaimValue>

  /** A signed token: its header's algorithm and its claims. */
  datatype Token = Token(alg: Alg, claims: Claims)

  /** The oracle's reading of a compact token. */
  datatype Decoding = Undecodable | Decoded(alg: Alg, signatureOk: bool, claims: Claims)

  /** A compact token has exactly three dot-separated segments. */
  predicate ThreeSegments(compact: string) {
    |Split(compact, '.')| == 3
  }

  datatype TimeClaim = Absent | At(seconds: int) | Malformed

  /** A numeric date claim; a zero number counts as absent, a non-number is malformed. */
  function TimeClaimOf(claims: Claims, name: string): (t: TimeClaim)
    ensures name !in claims ==> t == Absent
    ensures t.At? ==> claims[name] == Num(t.seconds) && t.seconds != 0
    ensures name in claims && claims[name].Num? ==>
      t == (if claims[name].n == 0 then Absent else At(claims[name].n))
    ensures name in claims && !claims[name].Num? ==> t == Malformed
  {
    if name !in claims then Absent
    else match claims[name]
      case Num(n) => if n == 0 then Absent else At(n)
      case _ => Malformed
  }

  /** Not expired: the current time is before `exp`. */
  predicate NotExpired(claims: Claims, now: int) {
    match TimeClaimOf(claims, "exp")
    case Absent => true
    case At(exp) => now < exp
    case Malformed => false
  }

  /** Already valid: the current time is at or after `nbf`. */
  predicate NotBefore(claims: Claims, now: int) {
    match TimeClaimOf(claims, "nbf")
    case Absent => true
    case At(nbf) => now >= nbf
    case Malformed => false
  }

  /** The time checks of the parser's default validator. */
  predicate TimeValid(claims: Claims, now: int) {
    NotExpired(claims, now) && NotBefore(claims, now)
  }

  datatype ParseError = TokenMalformed | SignatureInvalid | ClaimsInvalid

  /**
   * jwt.ParseWithClaims with a key function that accepts only HMAC methods:
   * the shape check, the method check, the signature, then the time claims.
   */
  function Parse(compact: string, decoding: Decoding, now: int): (r: Result<Claims, ParseError>)
    ensures r.Success? <==>
      && ThreeSegments(compact) && decoding.Decoded?
      && IsHmac(decoding.alg) && decoding.signatureOk && TimeValid(decoding.claims, now)
    ensures r.Success? ==> r.value == decoding.claims
    ensures decoding.Decoded? && !IsHmac(decoding.alg) && ThreeSegments(compact) ==> r == Failure(SignatureInvalid)
  {
    if !ThreeSegments(compact) || decoding.Undecodable? then Failure(TokenMalformed)
    else if !IsHmac(decoding.alg) || !decoding.signatureOk then Failure(SignatureInvalid)
    else if !TimeValid(decoding.claims, now) then Failure(ClaimsInvalid)
    else Success(decoding.claims)
  }

  /** The empty string is not a token. */
  lemma EmptyIsMalformed(decoding: Decoding, now: int)
    ensures Parse("", decoding, now) == Failure(TokenMalformed)
  {
    assert Split("", '.') == [""];
  }

  /** Past its expiry a token is refused whatever its signature. */
  lemma ExpiredRefused(compact: string, decoding: Decoding, now: int)
    requires decoding.Decoded? && "exp" in decoding.claims && decoding.claims["exp"].Num?
    requires decoding.claims["exp"].n != 0 && now >= decoding.claims["exp"].n
    ensures Parse(compact, decoding, now).Failure?
  {
  }
}

=== FILE: meeting_repo.dfy ===
/**
 * The meeting table: an all-or-nothing insert that flattens the attendee list
 * into its column, a filtered listing, and a lookup by primary key. Every row
 * read back goes through the AfterFind hook.
 */
module MeetingRepo {
  import opened Results
  import opened Domain

  /** Stored rows and the last value the id sequence handed out. */
  datatype MeetingTable = MeetingTable(rows: seq<Meeting>, lastId: nat)

  /** Every row is in its persisted form: the list field is not a column, so a row never carries one. */
  predicate RowsPersisted(t: MeetingTable) {
    forall r :: r in t.rows ==> r.attendees == []
  }

  predicate IdFree(rows: seq<Meeting>, id: nat) {
    forall r :: r in rows ==> r.id != id
  }

  predicate IdsDistinct(rows: seq<Meeting>) {
    forall i, j :: 0 <= i < j < |rows| ==> rows[i].id != rows[j].id
  }

  /** The caller's meeting after the call (its column filled in, its id assigned on success) and the table. */
  datatype Insert = Insert(table: MeetingTable, meeting: Meeting, ok: bool)

  /**
   * CreateMeeting: fill the column from the list, then insert inside a
   * transaction. A zero id takes the next sequence value; an explicit id must
   * be free. A refused insert is rolled back.
   */
  function CreateMeeting(t: MeetingTable, m: Meeting, insertOk: bool): (r: Insert)
    ensures Flattened(r.meeting)
    ensures r.meeting.(id := m.id, attendeesString := m.attendeesString) == m
    ensures r.ok ==> insertOk && r.meeting.id != 0 && IdFree(t.rows, r.meeting.id)
    ensures r.ok ==> r.table.rows == t.rows + [Persisted(r.meeting)]
    ensures !r.ok ==> r.table == t && r.meeting.id == m.id
    ensures m.id == 0 ==> (r.ok <==> insertOk && IdFree(t.rows, t.lastId + 1))
    ensures m.id != 0 ==> (r.ok <==> insertOk && IdFree(t.rows, m.id))
    ensures r.ok && m.id == 0 ==> r.meeting.id == t.lastId + 1 && r.table.lastId == t.lastId + 1
    ensures r.ok && m.id != 0 ==> r.meeting.id == m.id && r.table.lastId == t.lastId
  {
    var prepared := m.(attendeesString := FlattenAttendees(m.attendees));
    var id := if m.id == 0 then t.lastId + 1 else m.id;
    var last := if m.id == 0 then t.lastId + 1 else t.lastId;
    if insertOk && IdFree(t.rows, id) then
      var stored := prepared.(id := id);
      Insert(MeetingTable(t.rows + [Persisted(stored)], last), stored, true)
    else
      Insert(t, prepared, false)
  }

  /** A committed insert keeps primary keys distinct. */
  lemma CreateKeepsIdsDistinct(t: MeetingTable, m: Meeting, insertOk: bool)
    requires IdsDistinct(t.rows)
    ensures IdsDistinct(CreateMeeting(t, m, insertOk).table.rows)
  {
    var r := CreateMeeting(t, m, insertOk);
    if r.ok {
      forall i, j | 0 <= i < j < |r.table.rows|
        ensures r.table.rows[i].id != r.table.rows[j].id
      {
        if j == |t.rows| {
          assert r.table.rows[i] in t.rows;
        }
      }
    }
  }

  /** CreateMeeting writes rows in their persisted form only. */
  lemma CreateKeepsRowsPersisted(t: MeetingTable, m: Meeting, insertOk: bool)
    requires RowsPersisted(t)
    ensures RowsPersisted(CreateMeeting(t, m, insertOk).table)
  {
    var r := CreateMeeting(t, m, insertOk);
    if r.ok {
      forall row | row in r.table.rows
        ensures row.attendees == []
      {
        if row !in t.rows {
          assert row == Persisted(r.meeting);
        }
      }
    }
  }

  /** A meeting written by CreateMeeting reads back with its attendee list, unless that list is `[""]`. */
  lemma StoredMeetingReadsBack(t: MeetingTable, m: Meeting, insertOk: bool)
    requires SeparatorFree(m.attendees) && m.attendees != [""]
    requires CreateMeeting(t, m, insertOk).ok
    ensures AfterFind(Last(CreateMeeting(t, m, insertOk).table.rows)) == CreateMeeting(t, m, insertOk).meeting
  {
    AttendeesRoundTrip(CreateMeeting(t, m, insertOk).meeting);
  }

  function Last(rows: seq<Meeting>): Meeting
    requires |rows| > 0
  {
    rows[|rows| - 1]
  }

  /** The listing's WHERE clause. */
  predicate Selected(row: Meeting, email: string, start: Timestamp, end: Timestamp) {
    row.createdBy == email && row.startTime >= start && row.endTime <= end
  }

  /** How many rows the listing's WHERE clause matches, counted with repetition. */
  function SelectedCount(rows: seq<Meeting>, email: string, start: Timestamp, end: Timestamp): nat {
    if |rows| == 0 then 0
    else (if Selected(rows[0], email, start, end) then 1 else 0) + SelectedCount(rows[1..], email, start, end)
  }

  /** The selected rows, loaded, in table order (the query itself fixes no order). */
  function SelectRows(rows: seq<Meeting>, email: string, start: Timestamp, end: Timestamp): (out: seq<Meeting>)
    ensures |out| <= |rows|
    ensures |out| == SelectedCount(rows, email, start, end)
    ensures forall row :: row in rows && Selected(row, email, start, end) ==> AfterFind(row) in out
    ensures forall m :: m in out ==> exists row :: row in rows && Selected(row, email, start, end) && m == AfterFind(row)
  {
    if |rows| == 0 then []
    else
      var rest := SelectRows(rows[1..], email, start, end);
      assert forall row :: row in rows[1..] ==> row in rows;
      if Selected(rows[0], email, start, end) then [AfterFind(rows[0])] + rest else rest
  }

  /** A single row is selected into its loaded form exactly when the WHERE clause matches it. */
  lemma SelectOneRow(x: Meeting, email: string, start: Timestamp, end: Timestamp)
    ensures SelectRows([x], email, start, end) == (if Selected(x, email, start, end) then [AfterFind(x)] else [])
  {
  }

  /**
   * The selection of two stretches of a table is the two selections concatenated.
   * With SelectOneRow this fixes the result exactly, duplicates and order included.
   */
  lemma {:induction false} SelectRowsAppend(xs: seq<Meeting>, ys: seq<Meeting>, email: string, start: Timestamp, end: Timestamp)
    ensures SelectRows(xs + ys, email, start, end) == SelectRows(xs, email, start, end) + SelectRows(ys, email, start, end)
  {
    if |xs| > 0 {
      assert (xs + ys)[1..] == xs[1..] + ys;
      SelectRowsAppend(xs[1..], ys, email, start, end);
    } else {
      assert xs + ys == ys;
    }
  }

  datatype DbError = RecordNotFound | DatabaseFault

  /** ListMeetingsByUser: the caller's meetings within [start, end]. */
  function ListMeetingsByUser(t: MeetingTable, email: string, start: Timestamp, end: Timestamp, fault: bool): (r: Result<seq<Meeting>, DbError>)
    ensures fault <==> r.Failure?
    ensures r.Success? ==> forall m :: m in r.value ==>
      m.createdBy == email && m.startTime >= start && m.endTime <= end
    ensures r.Success? ==> forall row :: row in t.rows && Selected(row, email, start, end) ==> AfterFind(row) in r.value
    ensures r.Success? ==> forall m :: m in r.value ==>
      exists row :: row in t.rows && Selected(row, email, start, end) && m == AfterFind(row)
    ensures r.Success? ==> |r.value| == SelectedCount(t.rows, email, start, end)
  {
    if fault then Failure(DatabaseFault) else Success(SelectRows(t.rows, email, start, end))
  }

  /** Position of the first row with primary key `id`. */
  function FindId(rows: seq<Meeting>, id: nat): (r: Option<nat>)
    ensures r.Some? ==> r.value < |rows| && rows[r.value].id == id
    ensures r.None? ==> IdFree(rows, id)
  {
    if |rows| == 0 then None
    else if rows[0].id == id then Some(0)
    else match FindId(rows[1..], id)
      case None => None
      case Some(i) => Some(i + 1)
  }

  /** GetMeetingByID: the loaded row with that id; a missing row is an error (gorm.ErrRecordNotFound). */
  function GetMeetingByID(t: MeetingTable, id: nat, fault: bool): (r: Result<Meeting, DbError>)
    ensures r == Failure(DatabaseFault) <==> fault
    ensures r == Failure(RecordNotFound) <==> !fault && IdFree(t.rows, id)
    ensures r.Success? ==> r.value.id == id && exists row :: row in t.rows && r.value == AfterFind(row)
  {
    if fault then Failure(DatabaseFault)
    else match FindId(t.rows, id)
      case None => Failure(RecordNotFound)
      case Some(i) => Success(AfterFind(t.rows[i]))
  }
}

=== FILE: middleware.dfy ===
/**
 * The authentication middleware of the protected routes: choose a session
 * token (header first, then cookie), validate it, and forward the request
 * with the token's email as the caller's identity, or answer 401.
 */
module Middleware {
  import opened Results
  import opened Text
  import Jwt

  const BearerPrefix: string := "Bearer "

  /**
   * The token of an Authorization header: the rest after an exact,
   * case-sensitive "Bearer " prefix, when something follows it; otherwise
   * empty. (The scheme name is not matched case-insensitively.)
   */
  function HeaderToken(header: string): (t: string)
    ensures t != "" <==> |header| > |BearerPrefix| && HasPrefix(header, BearerPrefix)
    ensures t != "" ==> header == BearerPrefix + t
    ensures t != "" ==> |t| == |header| - |BearerPrefix|
  {
    if header != "" && |header| > 7 && header[..7] == BearerPrefix then
      assert header == header[..7] + header[7..];
      header[7..]
    else ""
  }

  /** The token to validate: a non-empty header token, else the `token` cookie, else none. */
  function SelectToken(header: string, cookie: Option<string>): (t: Option<string>)
    ensures HeaderToken(header) != "" ==> t == Some(HeaderToken(header))
    ensures HeaderToken(header) == "" ==> t == cookie
    ensures t.None? <==> HeaderToken(header) == "" && cookie.None?
  {
    var fromHeader := HeaderToken(header);
    if fromHeader == "" then cookie else Some(fromHeader)
  }

  /** A header that is only the prefix carries no token: the cookie decides. */
  lemma BarePrefixFallsThrough(cookie: Option<string>)
    ensures SelectToken(BearerPrefix, cookie) == cookie
  {
  }

  /** A lower-case scheme name is not recognised: the cookie decides. */
  lemma LowerCaseSchemeIgnored(token: string, cookie: Option<string>)
    ensures SelectToken("bearer " + token, cookie) == cookie
  {
    var h := "bearer " + token;
    if |h| > 7 {
      assert h[0] != BearerPrefix[0];
    }
  }

  /** The identity a token proves, or why it proves none. */
  datatype GateError = InvalidToken(reason: Jwt.ParseError) | InvalidClaims

  /** validateAndSetContext: parse, then demand a string `email` claim. */
  function ValidateAndSetContext(compact: string, decoding: Jwt.Decoding, now: int): (r: Result<string, GateError>)
    ensures r.Success? <==>
      Jwt.Parse(compact, decoding, now).Success? && "email" in decoding.claims && decoding.claims["email"].Str?
    ensures r.Success? ==> decoding.Decoded? && Jwt.IsHmac(decoding.alg) && decoding.claims["email"] == Jwt.Str(r.value)
  {
    match Jwt.Parse(compact, decoding, now)
    case Failure(e) => Failure(InvalidToken(e))
    case Success(claims) =>
      if "email" in claims && claims["email"].Str? then Success(claims["email"].s) else Failure(InvalidClaims)
  }

  datatype Outcome = Forward(email: string) | Unauthorized(message: string)

  /** The middleware's decision, and the token it validated. */
  datatype Gate = Gate(validated: Option<string>, outcome: Outcome)

  /** AuthMiddleware; `decoding` is the oracle's reading of whichever token is chosen. */
  function AuthMiddleware(header: string, cookie: Option<string>, decoding: Jwt.Decoding, now: int): (g: Gate)
    ensures g.validated == SelectToken(header, cookie)
    ensures g.validated.None? ==> g.outcome == Unauthorized("Unauthorized: No valid authentication token")
    ensures g.outcome.Forward? <==>
      g.validated.Some? && ValidateAndSetContext(g.validated.value, decoding, now).Success?
    ensures g.outcome.Forward? ==>
      && decoding.Decoded? && Jwt.IsHmac(decoding.alg) && decoding.signatureOk
      && decoding.claims["email"] == Jwt.Str(g.outcome.email)
    ensures g.validated.Some? && g.outcome.Unauthorized? ==>
      g.outcome.message == "Unauthorized: Invalid authentication token"
  {
    match SelectToken(header, cookie)
    case None => Gate(None, Unauthorized("Unauthorized: No valid authentication token"))
    case Some(token) =>
      match ValidateAndSetContext(token, decoding, now)
      case Failure(_) => Gate(Some(token), Unauthorized("Unauthorized: Invalid authentication token"))
      case Success(email) => Gate(Some(token), Forward(email))
  }

  /** A token signed with a non-HMAC algorithm never gets through. */
  lemma NonHmacRejected(header: string, cookie: Option<string>, decoding: Jwt.Decoding, now: int)
    requires decoding.Decoded? && !Jwt.IsHmac(decoding.alg)
    ensures AuthMiddleware(header, cookie, decoding, now).outcome.Unauthorized?
  {
  }
}

=== FILE: results.dfy ===
/** Small failure-carrying datatypes shared by every module of the model. */
module Results {

  /** A value that may be absent: Go's nil pointer or a missing map entry. */
  datatype Option<+T> = None | Some(value: T)

  /** The (value, error) pair a Go function returns, with exactly one side set. */
  datatype Result<+T, +E> = Success(value: T) | Failure(error: E)

  /** The outcome of a call to an external system: a value, or an error message. */
  datatype CallResult<+T> = Done(value: T) | Failed(message: string)
}

=== FILE: session_flow.dfy ===
/**
 * Properties that span the login flow and the middleware: the state cookie
 * set by the login redirect satisfies the callback's guard, a session token
 * issued at login is admitted for exactly 72 hours with the login's email,
 * and a logged-out browser is refused.
 */
module SessionFlow {
  import opened Results
  import opened Domain
  import UserStore
  import Jwt
  import AuthService
  import AuthHandler
  import Middleware

  /** Echoing the state of the login redirect passes the callback's guard; the exchange then depends only on the code. */
  lemma LoginStatePassesCallback(
    state: string, code: string, users: UserStore.Users,
    exchange: CallResult<AuthService.ProviderToken>, now: Timestamp, o: AuthService.LoginOracle)
    requires state != ""
    ensures var cookie := AuthHandler.GoogleLogin(state)[0].cookie.value;
      var c := AuthHandler.GoogleCallback(users, Some(cookie), state, code, exchange, now, o);
      && c.effects[0] == AuthHandler.ClearStateCookie
      && (AuthHandler.ExchangeCode(code) in c.effects <==> code != "")
  {
    var cookie := AuthHandler.GoogleLogin(state)[0].cookie.value;
    var c := AuthHandler.GoogleCallback(users, Some(cookie), state, code, exchange, now, o);
    if code != "" {
      assert c.effects[1] == AuthHandler.ExchangeCode(code);
    }
  }

  /** Any other state value is refused before the exchange, and nothing is stored. */
  lemma ForgedStateRefused(
    state: string, forged: string, code: string, users: UserStore.Users,
    exchange: CallResult<AuthService.ProviderToken>, now: Timestamp, o: AuthService.LoginOracle)
    requires forged != state
    ensures var cookie := AuthHandler.GoogleLogin(state)[0].cookie.value;
      var c := AuthHandler.GoogleCallback(users, Some(cookie), forged, code, exchange, now, o);
      c.users == users && c.effects == [AuthHandler.Fail(400, "Invalid state parameter")]
  {
  }

  /**
   * A session token issued at `now`, presented later in the cookie (and read
   * back faithfully), is admitted exactly while the clock is before
   * now + 72h, and the request then carries the login's email.
   */
  lemma IssuedSessionAdmittedFor72Hours(
    users: UserStore.Users, token: AuthService.ProviderToken, now: Timestamp, o: AuthService.LoginOracle,
    header: string, later: int)
    requires now >= 0
    requires AuthService.HandleGoogleCallback(users, token, now, o).result.Success?
    requires Jwt.ThreeSegments(AuthService.HandleGoogleCallback(users, token, now, o).result.value.compact)
    requires Middleware.HeaderToken(header) == ""
    ensures var s := AuthService.HandleGoogleCallback(users, token, now, o).result.value;
      var g := Middleware.AuthMiddleware(header, Some(s.compact), Jwt.Decoded(s.token.alg, true, s.token.claims), later);
      && (g.outcome.Forward? <==> later < now + AuthService.SessionLifetime)
      && (g.outcome.Forward? ==> g.outcome.email == o.verification.claims.email)
  {
    var s := AuthService.HandleGoogleCallback(users, token, now, o).result.value;
    var claims := s.token.claims;
    assert Jwt.TimeClaimOf(claims, "exp") == Jwt.At(now + AuthService.SessionLifetime);
    assert Jwt.TimeClaimOf(claims, "nbf") == Jwt.Absent;
  }

  /** After logout the browser holds no usable session: without a bearer header the request is refused. */
  lemma LoggedOutBrowserRefused(header: string, keptCookie: bool, decoding: Jwt.Decoding, now: int)
    requires Middleware.HeaderToken(header) == ""
    ensures var cleared := AuthHandler.Logout()[0].cookie.value;
      var cookie := if keptCookie then Some(cleared) else None;
      Middleware.AuthMiddleware(header, cookie, decoding, now).outcome.Unauthorized?
  {
    Jwt.EmptyIsMalformed(decoding, now);
  }
}

=== FILE: text.dfy ===
/**
 * The few pieces of Go's `strings` package the service relies on.
 *
 * A Go string is a sequence of bytes; here every `char` stands for one byte,
 * so `|s|` is Go's `len(s)` and substring tests are byte-wise, as in Go.
 */
module Text {

  /** strings.HasPrefix */
  predicate HasPrefix(s: string, prefix: string) {
    |prefix| <= |s| && s[..|prefix|] == prefix
  }

  /** strings.Contains: `sub` occurs somewhere in `s` (the empty string occurs everywhere). */
  predicate Contains(s: string, sub: string)
    decreases |s|
  {
    HasPrefix(s, sub) || (|s| > 0 && Contains(s[1..], sub))
  }

  /** Reference notion of an occurrence: `sub` sits in `s` at offset `i`. */
  predicate OccursAt(s: string, sub: string, i: int) {
    0 <= i && i + |sub| <= |s| && s[i..i + |sub|] == sub
  }

  /** The recursive search finds exactly the occurrences. */
  lemma {:induction false} ContainsIffOccurs(s: string, sub: string)
    ensures Contains(s, sub) <==> exists i :: OccursAt(s, sub, i)
    decreases |s|
  {
    if HasPrefix(s, sub) {
      assert OccursAt(s, sub, 0);
    } else if |s| > 0 {
      ContainsIffOccurs(s[1..], sub);
      assert !OccursAt(s, sub, 0);
      forall i | OccursAt(s[1..], sub, i)
        ensures OccursAt(s, sub, i + 1)
      {
        assert s[1..][i..i + |sub|] == s[i + 1..i + 1 + |sub|];
      }
      forall i | OccursAt(s, sub, i)
        ensures OccursAt(s[1..], sub, i - 1)
      {
        assert s[1..][i - 1..i - 1 + |sub|] == s[i..i + |sub|];
      }
    }
  }

  /** An occurrence survives any text put around it (error wrapping keeps the message). */
  lemma ContainsInContext(before: string, s: string, after: string, sub: string)
    requires Contains(s, sub)
    ensures Contains(before + s + after, sub)
  {
    ContainsIffOccurs(s, sub);
    var i :| OccursAt(s, sub, i);
    var whole := before + s + after;
    assert whole[|before| + i..|before| + i + |sub|] == s[i..i + |sub|];
    assert OccursAt(whole, sub, |before| + i);
    ContainsIffOccurs(whole, sub);
  }

  /** Searching for a one-byte string is the same as membership of that byte. */
  lemma {:induction false} ContainsSingle(s: string, c: char)
    ensures Contains(s, [c]) <==> c in s
    decreases |s|
  {
    if |s| > 0 {
      ContainsSingle(s[1..], c);
      assert s == [s[0]] + s[1..];
    }
  }

  /** A byte of `sub` that never appears in `s` rules out every occurrence. */
  lemma MissingByteRulesOut(s: string, sub: string, c: char)
    requires c in sub && c !in s
    ensures !Contains(s, sub)
  {
    var k :| 0 <= k < |sub| && sub[k] == c;
    forall i | 0 <= i && i + |sub| <= |s|
      ensures !OccursAt(s, sub, i)
    {
      assert s[i..i + |sub|][k] == s[i + k];
    }
    ContainsIffOccurs(s, sub);
  }

  /** Number of occurrences of the byte `c` in `s`. */
  function Count(s: string, c: char): nat
  {
    if |s| == 0 then 0 else (if s[0] == c then 1 else 0) + Count(s[1..], c)
  }

  /** strings.Split with a one-byte separator. */
  function Split(s: string, sep: char): (parts: seq<string>)
    ensures |parts| >= 1
  {
    if |s| == 0 then [""]
    else
      var rest := Split(s[1..], sep);
      if s[0] == sep then [""] + rest
      else [[s[0]] + rest[0]] + rest[1..]
  }

  /** strings.Join with a one-byte separator. */
  function Join(parts: seq<string>, sep: char): string
  {
    if |parts| == 0 then ""
    else if |parts| == 1 then parts[0]
    else parts[0] + [sep] + Join(parts[1..], sep)
  }

  /** No piece produced by Split contains the separator. */
  lemma {:induction false} SplitPiecesAreFree(s: string, sep: char)
    ensures forall i :: 0 <= i < |Split(s, sep)| ==> sep !in Split(s, sep)[i]
    decreases |s|
  {
    if |s| > 0 {
      SplitPiecesAreFree(s[1..], sep);
    }
  }

  /** Split yields one more piece than there are separators. */
  lemma {:induction false} SplitLength(s: string, sep: char)
    ensures |Split(s, sep)| == Count(s, sep) + 1
    decreases |s|
  {
    if |s| > 0 {
      SplitLength(s[1..], sep);
    }
  }

  /** Prepending a byte to the first piece prepends it to the joined string. */
  lemma JoinExtendFirst(c: char, parts: seq<string>, sep: char)
    requires |parts| >= 1
    ensures Join([[c] + parts[0]] + parts[1..], sep) == [c] + Join(parts, sep)
  {
    var ext := [[c] + parts[0]] + parts[1..];
    if |parts| > 1 {
      assert ext[1..] == parts[1..];
    }
  }

  /** Joining the pieces of a split gives back the original string. */
  lemma {:induction false} JoinSplit(s: string, sep: char)
    ensures Join(Split(s, sep), sep) == s
    decreases |s|
  {
    if |s| > 0 {
      var rest := Split(s[1..], sep);
      JoinSplit(s[1..], sep);
      if s[0] == sep {
        assert ([""] + rest)[1..] == rest;
        assert s == [sep] + s[1..];
      } else {
        JoinExtendFirst(s[0], rest, sep);
        assert s == [s[0]] + s[1..];
      }
    }
  }

  /** A separator-free string is a single piece. */
  lemma {:induction false} SplitFree(x: string, sep: char)
    requires sep !in x
    ensures Split(x, sep) == [x]
    decreases |x|
  {
    if |x| > 0 {
      SplitFree(x[1..], sep);
      assert x == [x[0]] + x[1..];
    }
  }

  /** Splitting `x, rest` peels off `x` when `x` holds no separator. */
  lemma {:induction false} SplitAfterFree(x: string, rest: string, sep: char)
    requires sep !in x
    ensures Split(x + [sep] + rest, sep) == [x] + Split(rest, sep)
    decreases |x|
  {
    var s := x + [sep] + rest;
    if |x| == 0 {
      assert s[1..] == rest;
    } else {
      assert s[1..] == x[1..] + [sep] + rest;
      SplitAfterFree(x[1..], rest, sep);
      assert x == [x[0]] + x[1..];
    }
  }

  /** Splitting a join of separator-free pieces gives back the pieces (there is at least one). */
  lemma {:induction false} SplitJoin(parts: seq<string>, sep: char)
    requires |parts| >= 1
    requires forall i :: 0 <= i < |parts| ==> sep !in parts[i]
    ensures Split(Join(parts, sep), sep) == parts
    decreases |parts|
  {
    if |parts| == 1 {
      SplitFree(parts[0], sep);
    } else {
      SplitJoin(parts[1..], sep);
      SplitAfterFree(parts[0], Join(parts[1..], sep), sep);
      assert parts == [parts[0]] + parts[1..];
    }
  }

  /** Join yields the empty string exactly for no pieces or one empty piece. */
  lemma JoinIsEmpty(parts: seq<string>, sep: char)
    ensures Join(parts, sep) == "" <==> |parts| == 0 || parts == [""]
  {
    if |parts| > 1 {
      assert |Join(parts, sep)| >= 1;
    }
  }
}

=== FILE: user_store.dfy ===
/**
 * The user table as the services see it. A lookup answers with the first
 * matching row in table order; under KeysUnique at most one row matches. A lookup that finds nothing is
 * not an error (the repository returns a nil user and a nil error); a database
 * fault is modelled by a flag the caller passes in.
 */
module UserStore {
  import opened Results
  import opened Domain

  type Users = seq<User>

  /** The columns the repository looks users up by. */
  datatype Key = ByGoogleId(googleId: string) | ByEmail(email: string)

  predicate Matches(u: User, key: Key) {
    match key
    case ByGoogleId(g) => u.googleId == g
    case ByEmail(e) => u.email == e
  }

  /** The primary key and both unique columns (`gorm:"unique"`) hold distinct values. */
  predicate KeysUnique(users: Users) {
    forall i, j :: 0 <= i < j < |users| ==>
      && users[i].id != users[j].id
      && users[i].googleId != users[j].googleId
      && users[i].email != users[j].email
  }

  /** Index of the first row matching `key`. */
  function Find(users: Users, key: Key): (r: Option<nat>)
    ensures r.Some? ==>
      && r.value < |users|
      && Matches(users[r.value], key)
      && forall j :: 0 <= j < r.value ==> !Matches(users[j], key)
    ensures r.None? ==> forall j :: 0 <= j < |users| ==> !Matches(users[j], key)
  {
    if |users| == 0 then None
    else if Matches(users[0], key) then Some(0)
    else match Find(users[1..], key)
      case None => None
      case Some(i) => Some(i + 1)
  }

  /** The repository's answer to a lookup. */
  datatype Lookup = LookupFailed | NotFound | Found(user: User)

  /** GetUserByGoogleID / GetUserByEmail. */
  function Get(users: Users, key: Key, fault: bool): (r: Lookup)
    ensures r.LookupFailed? <==> fault
    ensures r.NotFound? <==> !fault && forall u :: u in users ==> !Matches(u, key)
    ensures r.Found? ==> r.user in users && Matches(r.user, key)
  {
    if fault then LookupFailed
    else match Find(users, key)
      case None => NotFound
      case Some(i) => Found(users[i])
  }

  /** The table after a write, and whether the write committed. */
  datatype Write = Write(users: Users, ok: bool)

  /** `u` shares no key with any stored row. */
  predicate Insertable(users: Users, u: User) {
    forall v :: v in users ==> v.id != u.id && v.googleId != u.googleId && v.email != u.email
  }

  /** CreateUser: an insert, refused by the database on a fault or a key collision. */
  function CreateUser(users: Users, u: User, fault: bool): (w: Write)
    ensures w.ok <==> !fault && Insertable(users, u)
    ensures w.ok ==> w.users == users + [u]
    ensures !w.ok ==> w.users == users
  {
    if !fault && Insertable(users, u) then Write(users + [u], true) else Write(users, false)
  }

  /** Saving `u` keeps the unique columns unique among the rows with another id. */
  predicate Saveable(users: Users, u: User) {
    forall v :: v in users && v.id != u.id ==> v.googleId != u.googleId && v.email != u.email
  }

  /** Every row with `u`'s primary key, overwritten by `u`. */
  function ReplaceById(users: Users, u: User): (r: Users)
    ensures |r| == |users|
    ensures forall i :: 0 <= i < |users| ==> r[i] == (if users[i].id == u.id then u else users[i])
    ensures (exists v :: v in users && v.id == u.id) ==> u in r
  {
    if |users| == 0 then [] else [if users[0].id == u.id then u else users[0]] + ReplaceById(users[1..], u)
  }

  /** UpdateUser (GORM Save): update the row with `u`'s primary key, or insert when there is none. */
  function UpdateUser(users: Users, u: User, fault: bool): (w: Write)
    ensures w.ok <==> !fault && Saveable(users, u)
    ensures !w.ok ==> w.users == users
    ensures w.ok ==> u in w.users
    ensures w.ok ==> forall v :: v in w.users ==> v == u || v in users
    ensures w.ok ==> forall v :: v in w.users && v.id == u.id ==> v == u
    ensures w.ok ==> forall v :: v in users && v.id != u.id ==> v in w.users
  {
    if fault || !Saveable(users, u) then Write(users, false)
    else if exists v :: v in users && v.id == u.id then Write(ReplaceById(users, u), true)
    else Write(users + [u], true)
  }

  /** A successful create keeps every key unique. */
  lemma CreatePreservesUniqueness(users: Users, u: User, fault: bool)
    requires KeysUnique(users)
    ensures KeysUnique(CreateUser(users, u, fault).users)
  {
    var w := CreateUser(users, u, fault);
    if w.ok {
      forall i, j | 0 <= i < j < |w.users|
        ensures w.users[i].id != w.users[j].id
        ensures w.users[i].googleId != w.users[j].googleId
        ensures w.users[i].email != w.users[j].email
      {
        if j == |users| {
          assert w.users[i] in users;
        }
      }
    }
  }

  /** A successful save keeps every key unique. */
  lemma UpdatePreservesUniqueness(users: Users, u: User, fault: bool)
    requires KeysUnique(users)
    ensures KeysUnique(UpdateUser(users, u, fault).users)
  {
    var w := UpdateUser(users, u, fault);
    if w.ok {
      if exists v :: v in users && v.id == u.id {
        var r := ReplaceById(users, u);
        assert w.users == r;
        forall i, j | 0 <= i < j < |r|
          ensures r[i].id != r[j].id && r[i].googleId != r[j].googleId && r[i].email != r[j].email
        {
          assert users[i] in users && users[j] in users;
        }
      } else {
        forall i, j | 0 <= i < j < |w.users|
          ensures w.users[i].id != w.users[j].id
          ensures w.users[i].googleId != w.users[j].googleId
          ensures w.users[i].email != w.users[j].email
        {
          if j == |users| {
            assert w.users[i] in users;
          }
        }
      }
    }
  }
}
